=== FILE: README.md ===
# DARK-DOGE burn-address tools and burn-tracker page, modelled in Dafny

This project models the logic core of the DARK-DOGE tools. It covers two areas.

**The Base58 / Base58Check address code of the four Python tools:**

- the Base58 text encoding of byte strings, with one '1' per leading zero byte (`Base58`, over the positional numerals of `Radix`);
- the 25-byte Dogecoin P2PKH address, made of version byte 0x1e, a 20-byte hash and a 4-byte checksum, and its verification (`Address`);
- the two beauty scores (`Beauty`);
- the brute-force burn-address search of vanity_burn.py (`BurnSearch`);
- the pattern matching, prefix validation, difficulty estimate and best-result selection of mine_vanity.py (`Miner`);
- the numeric decoder and verification report of verify_vanity.py (`VerifyVanity`);
- the byte-valued encoder and burn-address assembly of calculate_dead_address.py (`DeadAddress`).

**The bookkeeping of script.js:**

- the age labels of `timeAgo`, burn detection in `updateBalance`, and the known-hash and new-row logic of `updateTransactions` (`Feed`);
- the animation skeleton (`Animation`): the start guards and pending-frame counts of the two animation loops, the sink capacity of 150, the 150-particle celebration burst, the removal thresholds and the reduced-motion switch.

Foreign and effectful pieces become parameters:

- The checksum, double SHA-256 of the payload truncated to 4 bytes, is a function parameter `checksum: seq<byte> -> Digest4` (`Address.Checksum`).
- RIPEMD-160 of the seed is an `Option<Hash20>` parameter. `None` stands for the branch where RIPEMD-160 is unavailable.
- The random 20-byte hashes of the miner are a parameter sequence.
- `Math.random()` results are real parameters in [0, 1).
- The current time is a parameter in milliseconds.

Distances and particle lives are `real`. A balance reading is a JavaScript number, a `real` or NaN (`Feed.JsNumber`), since a missing field makes it NaN.

Files: `wrappers.dfy` (Option/Result), `text.dfy` (the Python `str` operations used), `radix.dfy`, `base58.dfy`, `address.dfy`, `beauty.dfy`, `burn.dfy`, `miner.dfy`, `verify_vanity.dfy`, `dead_address.dfy`, `feed.dfy` and `animation.dfy`.

Where the code and its comments or docstrings disagree, the model follows the code:

- The verify_vanity.py decoder ignores leading '1's. `VerifyVanity.AgreesWithVerifyAddress` shows it still agrees with vanity_burn.py's `verify_address` whenever the full decoding fits in 25 bytes.
- `create_burn_address("")` raises instead of returning None. See Findings.
- `create_burn_address` accepts a 30-character prefix but its "Prefix too long" message gives 29 as the maximum. See Findings.
- `estimate_difficulty` is annotated to return a `Tuple[float, str]`, but for a prefix of 180 or more characters its true division raises OverflowError. `Miner.EstimateDifficulty` models that outcome.

## Model

| member | source | states |
|---|---|---|
| Radix.ToDigits | mine_vanity.py:44-47 | repeated `divmod` by the base yields digits below the base, without a leading zero, whose big-endian value is the number; no digits exactly for 0 |
| Radix.ToDigitsFromDigits | vanity_burn.py:58-64 | a minimal numeral is the only one for its value: converting the value back gives the same digits |
| Radix.FixedWidthUnique | verify_vanity.py:35-36 | two numerals of the same width with the same value are identical (so a left-padded 25-byte form is unique) |
| Radix.DecimalString | mine_vanity.py:156 | `str(n)`: at least one decimal digit, no leading zero unless it is "0", and the digits read back as n |
| Base58.DigitOfMember | vanity_burn.py:27-28 | a character is a key of ALPHABET_DICT exactly when it has a digit value below 58, and indexing ALPHABET by that value gives the character back |
| Base58.MinimalBytes | vanity_burn.py:58-64 | the `num & 0xff` / `num >>= 8` loop reversed: minimal big-endian bytes of the value, empty exactly for 0 |
| Base58.Encode | vanity_burn.py:67-83 | output uses only alphabet characters; its leading '1's equal the input's leading zero bytes; its numeral value equals the big-endian value of the bytes; empty input gives "" |
| Base58.OnesThenNumeral | mine_vanity.py:44-56 | a run of k '1's followed by a minimal numeral has exactly k leading '1's and the numeral's value |
| Base58.FirstInvalid | vanity_burn.py:45-47 | the character reported is the first character outside the alphabet; none exactly when every character is in it |
| Base58.Decode | vanity_burn.py:42-64 | fails exactly on a string with a non-alphabet character, naming the first one; otherwise one zero byte per leading '1', then minimal bytes, with the same value as the numeral |
| Base58.DecodeEncode | vanity_burn.py:42-83 | decoding an encoding gives back every byte string, leading zeros included |
| Base58.EncodeDecode | vanity_burn.py:42-83 | encoding a decoding gives back every alphabet string |
| Address.VersionedPayload | mine_vanity.py:62 | 21 bytes: the version byte 0x1e followed by the hash |
| Address.AddressBytes | mine_vanity.py:59-68 | exactly 25 bytes: the versioned payload followed by the checksum of that payload |
| Address.CreateAddressFromHash | mine_vanity.py:59-70 | a 34-character alphabet string starting with 'D' that decodes to the 25 address bytes |
| Address.VersionByteGivesD | mine_vanity.py:27 | every 25-byte string starting with 0x1e encodes to 34 characters starting with 'D' |
| Address.LeftPad | vanity_burn.py:279-280 | a shorter decoding is padded with zero bytes in front to exactly 25 bytes with the same value; a decoding of 25 or more bytes is left as is |
| Address.VerifyAddress | vanity_burn.py:274-291 | total: false for any non-alphabet string; true exactly when the decoding is at most 25 bytes and the padded bytes' last 4 equal the checksum of the first 21 |
| Address.CreatedAddressVerifies | vanity_burn.py:274-289 | every address built from a hash passes verify_address |
| Beauty.LowercaseCount | vanity_burn.py:205-206 | the number of positions holding a lower-case letter; so at most the length, and zero exactly when no character is lower-case |
| Beauty.TrailingOnes | vanity_burn.py:193-197 | the `current` counter: the length of the run of '1's at the end of the string, preceded by a character other than '1' or by nothing |
| Beauty.LongestOnesRun | vanity_burn.py:190-199 | the length of a run of '1's in the string that no other run exceeds |
| Beauty.LongestRunExtends | vanity_burn.py:193-198 | the loop step `max_consec = max(max_consec, current)` keeps the longest run when one character is appended |
| Beauty.CalculateBeauty | vanity_burn.py:182-208 | 5 per '1' plus 10 per '1' of the longest run plus 25 when the last three characters are equal, minus the lower-case count |
| Beauty.RepeatBonus | mine_vanity.py:106-112 | 25 exactly for three equal last characters, 10 exactly when only the last two agree; never both |
| Beauty.NiceEndingsAreDistinctTriples | mine_vanity.py:115 | the seven nice endings are distinct three-character strings |
| Beauty.OnlyOneEnding | mine_vanity.py:114-118 | a string that ends with one nice ending ends with no other |
| Beauty.EndingBonus | mine_vanity.py:114-118 | 0 or 20, and 20 exactly when the string ends with one of the distinct endings |
| Beauty.NiceEndingBonus | mine_vanity.py:114-118 | the nice-ending bonus is at most 20, and 20 exactly for an address ending in one of the seven |
| Beauty.PalindromeBonus | mine_vanity.py:124-127 | 30 exactly when the last six characters (all of a shorter string) read the same backwards, else 0 |
| Beauty.CalculateBeautyScore | mine_vanity.py:78-129 | 10 per '1' of the longest run plus 3 per '1' minus the lower-case count plus the three end bonuses, which together add between 0 and 75 |
| Beauty.ShortAddressScore | mine_vanity.py:78-129 | every address of at most one character gets the palindrome bonus of 30 and no other end bonus, scoring 30 plus 13 for a '1' minus 1 for a lower-case letter |
| Beauty.LongestRunIsUnique | mine_vanity.py:92-100 | the longest run of '1's has one length, so `max_ones` is determined by the address |
| BurnSearch.CheckBurnPrefixAsWritten | vanity_burn.py:103-119 | the prefix checks as written: the empty prefix raises IndexError; a valid prefix gets a filler length that makes 34 characters with the 4-character suffix |
| BurnSearch.EmptyPrefixRaises | vanity_burn.py:103-104 | the empty prefix reaches the error message's `prefix[0]` and raises, where the corrected check rejects it |
| BurnSearch.ReportedMaxUnderstates | vanity_burn.py:114-119 | as written, the "Prefix too long" message reports a maximum of 29, yet every 'D'-prefixed Base58 prefix of 30 characters, such as "D" and 29 '1's, is accepted with no filler |
| BurnSearch.ReportedMaxIsExact | vanity_burn.py:114-119 | with the corrected maximum of 30, a 'D'-prefixed Base58 prefix is accepted exactly when it is no longer than the reported maximum |
| BurnSearch.CheckBurnPrefix | vanity_burn.py:103-119 | accepted exactly when the prefix is non-empty, starts with 'D', is all alphabet characters and has at most 30 characters; the filler makes 34 characters; agrees with the as-written checks on every non-empty prefix |
| BurnSearch.BurnPrefixIsMinerPrefix | mine_vanity.py:235-246 | the burn search accepts a prefix exactly when validate_prefix does and it has at most 30 characters |
| BurnSearch.SuffixDigitsFit | vanity_burn.py:131-132 | every index below 58^4 has at most four base-58 digits |
| BurnSearch.SuffixAt | vanity_burn.py:132-133 | the k-th suffix of `itertools.product(ALPHABET, repeat=4)` is four alphabet characters whose numeral value is k |
| BurnSearch.SuffixAtInjective | vanity_burn.py:132-133 | different enumeration steps try different suffixes |
| BurnSearch.Candidate | vanity_burn.py:114-134 | 34 alphabet characters: the prefix, then '1' filler, then the 4-character suffix |
| BurnSearch.NoneVerifyBeforeStep | vanity_burn.py:132-153 | a failed candidate extends the run of failures by one |
| BurnSearch.FindSuffix | vanity_burn.py:132-153 | the first suffix in enumeration order whose candidate verifies; none when all 58^4 fail (with the clock assumed to have advanced, see Left out) |
| BurnSearch.CreateBurnAddress | vanity_burn.py:91-179 | None for a prefix the corrected check `CheckBurnPrefix` rejects, the empty prefix included, where the source raises IndexError (see Findings); otherwise the first verifying candidate, with its '1' count and calculate_beauty score; None only when every candidate fails |
| Miner.Join | mine_vanity.py:158 | the joined text starts with the first label and ends with the last |
| Miner.JoinIsNotBeauty | mine_vanity.py:158 | joining labels that do not start with 'b' never yields "beauty" |
| Miner.MatchedLabels | mine_vanity.py:135-156 | every label is non-empty and does not start with 'b'; there are none exactly when no constraint is given |
| Miner.CheckPatternMatch | mine_vanity.py:132-158 | true exactly when every given prefix/suffix/contains constraint holds and the '1' count reaches min_ones; "" on failure; "beauty" exactly when unconstrained; the labels name the prefix and the '1' count |
| Miner.ValidatePrefix | mine_vanity.py:235-246 | true exactly when the prefix starts with 'D' and every character is in the alphabet |
| Miner.GeneratedAddressPrefixesValid | mine_vanity.py:235-246 | every non-empty prefix of a generated address passes validate_prefix |
| Miner.EtaOf | mine_vanity.py:217-230 | the time band of a duration, each band exactly on its interval: instant below 1 s, seconds below 60, minutes below 3600, hours below 86400, days below 365 days, years below 1000 years, heat death from there on; the quantity is the duration in the band's unit |
| Miner.EtaMonotone | mine_vanity.py:217-230 | a longer duration never falls in an earlier band |
| Miner.EstimateDifficulty | mine_vanity.py:203-232 | (1, instant) for prefixes of length at most 1; otherwise an OverflowError exactly when 58^(len-1) / 500000 rounds beyond the largest double (a quotient of at least 2^1024 - 2^970), and else 58^(len-1) expected attempts and the band of that many attempts at 500000 per second |
| Miner.OverflowsFrom180 | mine_vanity.py:206-215 | the true division raises OverflowError exactly for prefixes of 180 characters or more |
| Miner.OverflowBracket | mine_vanity.py:211-215 | 58^178 / 500000 is below the overflow threshold and 58^179 / 500000 is not |
| Miner.DifficultyGrows | mine_vanity.py:206-215 | one more prefix character keeps an overflow an overflow, multiplies the expected attempts by 58 and never lowers the band |
| Miner.Offer | mine_vanity.py:174-180 | an attempt offers a score exactly when the address matches the pattern and its beauty score reaches min_beauty, and the offer is that score |
| Miner.MapSeq | mine_vanity.py:169-172 | one candidate per attempt, in order |
| Miner.Offers | mine_vanity.py:169-178 | one offer per hash |
| Miner.EarliestBestUnique | mine_vanity.py:180-181 | at most one attempt is the earliest with the highest score |
| Miner.BestOf | mine_vanity.py:166-181 | the chosen attempt exists and offered the recorded score |
| Miner.BestOfSnoc | mine_vanity.py:180-181 | a new attempt replaces the best only with a strictly higher score |
| Miner.BestOfIsEarliestBest | mine_vanity.py:169-189 | the selection is the earliest attempt with the highest offered score, or no attempt offered one |
| Miner.ResultFor | mine_vanity.py:182-189 | the MiningResult records the address, its beauty score, its '1' count, the pattern label and the attempt number |
| Miner.KeepBest | mine_vanity.py:166-200 | the `best_score = -1` loop with a strict `>` returns the record of the selected attempt, or None when no attempt qualifies |
| Miner.MineWorker | mine_vanity.py:161-200 | the result, if any, matches the pattern, reaches min_beauty and is the earliest attempt with the maximum score; None only when no attempt qualifies |
| VerifyVanity.HexDigits | verify_vanity.py:16 | `hex(num)[2:]`: hexadecimal digits of the value, at least one, no leading zero |
| VerifyVanity.EvenPad | verify_vanity.py:17-18 | an odd-length hex string gets one '0' in front; the value is unchanged |
| VerifyVanity.Unhexlify | verify_vanity.py:19 | each byte is the pair of hex digits it comes from |
| VerifyVanity.UnhexlifyValue | verify_vanity.py:16-19 | unhexlify preserves the value |
| VerifyVanity.NumericBytes | verify_vanity.py:15-19 | at least one byte, with the given value |
| VerifyVanity.HexBytes | verify_vanity.py:16-19 | `unhexlify` of the even-padded `hex(num)[2:]`: at least one byte, with the value num |
| VerifyVanity.HexBytesAreNumericBytes | verify_vanity.py:15-19 | the hex route produces the minimal bytes of the value, and a single 0x00 for 0 |
| VerifyVanity.NumericDecode | verify_vanity.py:7-19 | fails exactly on a string with a non-alphabet character, with `str.index`'s message "substring not found", which names no character; otherwise the minimal bytes of the value, with no byte for leading '1's |
| VerifyVanity.LeadingOnesIgnored | verify_vanity.py:11-13 | a leading '1' does not change the decoding |
| VerifyVanity.NumericBytesFit | verify_vanity.py:31-36 | the decoding fits in k bytes exactly when the value is below 256^k |
| VerifyVanity.BigEndian25 | verify_vanity.py:35-36 | the padded raw bytes are 25 bytes with the decoded value |
| VerifyVanity.VanityMarks | verify_vanity.py:59-67 | whether the address starts with the canonical prefix and whether "111" occurs in it |
| VerifyVanity.CheckDecoded | verify_vanity.py:29-67 | invalid length exactly above 25 bytes; checksum valid exactly when the padded bytes' checksum holds; the mismatch report carries the expected and actual checksums; vanity marks only after a valid checksum |
| VerifyVanity.VerifyVanity | verify_vanity.py:21-70 | decode error exactly on a non-alphabet address, carrying the message "substring not found"; invalid length exactly when the value needs more than 25 bytes; checksum verdict on the 25-byte big-endian form; vanity checks reached only on a valid checksum |
| VerifyVanity.AgreesWithVerifyAddress | verify_vanity.py:21-57 | when vanity_burn.py's decoding fits in 25 bytes, the checksum verdict agrees with its verify_address |
| DeadAddress.DecodeAscii | calculate_dead_address.py:63 | `decode('utf-8')` of ASCII bytes: the character with each byte's code |
| DeadAddress.AsciiRoundTrip | calculate_dead_address.py:62-63 | alphabet text is ASCII, and decoding its bytes gives it back |
| DeadAddress.AlphabetByte | calculate_dead_address.py:5-12 | `alphabet[r:r+1]` is the ASCII code of the r-th alphabet character |
| DeadAddress.ByteSpellSnoc | calculate_dead_address.py:10-12 | appending a digit appends its alphabet byte |
| DeadAddress.ByteSpellStep | calculate_dead_address.py:10-12 | one `divmod(n, 58)` step peels the last digit off the numeral |
| DeadAddress.DivmodDigits | calculate_dead_address.py:9-12 | the collected bytes, reversed, spell the base-58 numeral of the value |
| DeadAddress.LeadingZeroBytes | calculate_dead_address.py:15-20 | the pad count is the number of leading zero bytes |
| DeadAddress.EncodedBytes | calculate_dead_address.py:4-22 | the byte form of the text encoding is b'1' per leading zero byte followed by the alphabet bytes of the base-58 digits |
| DeadAddress.EncodeBytes | calculate_dead_address.py:4-22 | byte for byte the ASCII of mine_vanity.py's base58_encode on every input |
| DeadAddress.CalculateBurnAddress | calculate_dead_address.py:24-69 | None exactly when RIPEMD-160 is unavailable; otherwise the Base58 text of 0x1e, the hash and the checksum, which is the address create_address_from_hash builds, 34 characters starting with 'D' |
| Feed.ElapsedSeconds | script.js:771 | `Math.floor(ms / 1000)`: the whole seconds elapsed, rounded down for negative times too |
| Feed.Bucket | script.js:770-779 | "just now" exactly below 60 seconds, negative times included; otherwise the largest unit not exceeding the elapsed time, counted in whole units rounded down, at least one |
| Feed.DivMonotone | script.js:774-778 | rounding down a division keeps order |
| Feed.BucketMonotone | script.js:773-778 | a longer elapsed time never gets a younger label |
| Feed.LeadingDigits | script.js:774-778 | the run of decimal digits a label starts with |
| Feed.LeadingDigitsOf | script.js:774-778 | a count followed by a unit suffix has exactly the count's digits in front |
| Feed.SuffixUnit | script.js:774-778 | reads a unit suffix back |
| Feed.ParseAgo | script.js:774-778 | a count and a suffix read back as that count and unit |
| Feed.Label | script.js:774-778 | the label text, "just now" or the decimal count followed by the unit suffix, reads back as the age it was made from |
| Feed.LabelInjective | script.js:773-778 | different ages never share a label |
| Feed.TimeAgo | script.js:770-779 | "just now" exactly when less than a minute has passed; the label always reads back as the bucket of the elapsed whole seconds |
| Feed.UpdateBalance | script.js:638-660 | a burn is detected exactly when the last reading was a positive number and the new reading is a higher number, for the difference; the new reading is kept, NaN included |
| Feed.NaNSilencesNextReading | script.js:605-660 | a NaN reading becomes the last balance, and the reading after it detects no burn whatever its value |
| Feed.RepeatedBalanceIsSilent | script.js:642-660 | the same balance twice detects nothing the second time |
| Feed.BurnsAddUpToGrowth | script.js:642-660 | once a positive balance is known, the detected burns of a non-decreasing run of numeric readings add up to the balance's growth |
| Feed.Received | script.js:696 | the received payments are exactly the references with tx_input_n of -1 |
| Feed.HashSet | script.js:703 | the set of incoming hashes |
| Feed.AnyUnknown | script.js:705-713 | the first pass finds an unknown hash exactly when one exists |
| Feed.MarkRows | script.js:719-743 | every row is new exactly when the page loaded before and its hash is unknown and not earlier in the batch; every hash becomes known; each row's age is timeAgo of its confirmation |
| Feed.SeenBefore | script.js:727-728 | a hash is unknown at its row exactly when it was unknown before the batch and this is its first row |
| Feed.FirstOccurrence | script.js:727-728 | every hash in a batch has a first row |
| Feed.UpdateTransactions | script.js:694-768 | no received payment leaves the state unchanged; otherwise every received hash becomes known, first load ends, at most the first 10 are cached, and the celebration fires exactly when the page loaded before and some hash was unknown |
| Feed.CelebrationMatchesNewRows | script.js:703-765 | the celebration fires exactly when some row is marked new; a hash repeated in a batch is marked new at most once |
| Animation.StartStarfield | script.js:198-202 | no change under reduced motion or while running; otherwise running with one more pending frame; nothing else changes; the page invariant is kept |
| Animation.StartBlackhole | script.js:335-339 | the same guard for the black-hole loop |
| Animation.StartIdempotent | script.js:198-202 | starting twice is starting once, so at most one frame is added |
| Animation.Boot | script.js:216-221 | the page starts both loops exactly when reduced motion is not preferred, and satisfies the invariant |
| Animation.StarfieldFrame | script.js:157-161 | under reduced motion only the flag clears and one pending frame is dropped, and nothing else changes; otherwise nothing changes |
| Animation.Survivors | script.js:288-314 | the survivors of a frame are all alive and no more than before |
| Animation.SurvivorsMembers | script.js:311-314 | the survivors are exactly the advanced particles still alive |
| Animation.SurvivorsUnfold | script.js:288-314 | peeling the first particle off a suffix |
| Animation.Sweep | script.js:288-314 | the reverse loop with splice leaves exactly the survivors, in order |
| Animation.SinkStep | script.js:291 | a frame keeps a particle's speed, and moves a valid particle inward by at least 0.3 and less than 0.8 |
| Animation.SinkAlive | script.js:311-314 | a particle is kept exactly when its distance is at least 30 |
| Animation.NewSinkParticle | script.js:246-258 | a new particle starts between 180 and 230 from the centre with speed between 0.3 and 0.8 |
| Animation.SinkSurvivorsValid | script.js:311-314 | a particle still held after a frame is outside radius 30 and keeps its speed |
| Animation.BlackholeFrame | script.js:265-333 | under reduced motion the loop stops; otherwise at most one particle is admitted, none when 150 are held or the roll is at most 0.8; every old particle still at 30 or more after its step is kept; the new particle is admitted and kept when fewer than 150 are held and the roll exceeds 0.8; every particle left is at least 30 from the centre; the invariant is kept |
| Animation.BlackholeFrameOnlyAdvances | script.js:278-314 | every particle a frame leaves is an old particle or the admitted one, advanced by one step |
| Animation.SinkCapacityKept | script.js:278-280 | the sink never holds more than 150 particles |
| Animation.DecayInRange | script.js:380 | a decay of 0.01 + 0.02u lies in [0.01, 0.03) |
| Animation.TriggerCelebration | script.js:362-384 | nothing under reduced motion; otherwise exactly 150 particles are appended at life 1.0 with decay in [0.01, 0.03) and the old ones are kept |
| Animation.BurstStep | script.js:403 | a frame keeps a particle's decay, and lowers a valid particle's life by at least 0.01 and less than 0.03 |
| Animation.BurstAlive | script.js:405-408 | a particle is kept exactly when its life is positive |
| Animation.BurstFrame | script.js:386-408 | under reduced motion nothing changes; otherwise every particle whose life is still positive after its decay is kept, and every particle left has positive life; the invariant is kept |
| Animation.BurstFrameOnlyAdvances | script.js:400-408 | every particle a celebration frame leaves is an old particle after one decay |
| Animation.BurstSurvivorsValid | script.js:403-408 | a burst particle still held after a frame keeps a life in (0, 1] and its decay |
| Animation.SurvivorsLoseAHundredth | script.js:403-408 | a frame lowers every remaining life bound by 0.01 |
| Animation.FramesFollowLives | script.js:386-408 | without reduced motion, k celebration frames change only the particle list, which is the list faded k times |
| Animation.DrainsWithin | script.js:386-408 | particles of life at most k hundredths are gone after k fades |
| Animation.BurstDrainsIn100Frames | script.js:379-408 | a celebration burst is gone after 100 frames |
| Animation.SetReducedMotion | script.js:432-446 | turning reduced motion on only sets the flag; turning it off leaves both loops running; particles untouched; the invariant is kept |
| Animation.ToggleKeepsOneLoop | script.js:432-446 | toggling reduced motion twice never leaves two pending frames for a loop |

## Left out

- BurnSearch.FindSuffix: the model assumes the clock has advanced when a candidate is found. In the source, `attempts/elapsed` (vanity_burn.py:161) raises ZeroDivisionError when `time.time()` has not moved since the search started, and `except Exception: continue` then skips that verifying candidate. This can happen with a coarse clock. The model returns it instead, and so does BurnSearch.CreateBurnAddress.
- Hashing: SHA-256 and RIPEMD-160 are parameters (`Checksum`, `Option<Hash20>`), as is `os.urandom` (the miner's hash sequence). `hashlib.algorithms_available` becomes the `None` case.
- All printing, argparse, `time.time()`, elapsed and rate reports, and `generate_multiple` / `show_list` (which only loop over `create_burn_address` and sort for display).
- `multiprocessing.Pool` and the splitting of attempts across workers: one worker's selection is modelled.
- The `filler` argument of `create_burn_address`: fixed to its default "1", the only value any caller passes.
- Miner.EstimateDifficulty: the `time_str` text is a band with its real-valued quantity. The one-decimal formatting is not modelled. The band is chosen on the exact quotient, not on its rounded double, so a duration within rounding of a band boundary may land in the other band.
- Beauty.LowercaseCount: `str.islower` is modelled on ASCII letters only. Addresses are ASCII, so the scores are unaffected.
- Feed.UpdateBalance: a reading is a real number or NaN. Infinity and the rounding of `final_balance / 100000000` to a double are not modelled.
- `updateStats`, `updateSupplyStats`, `updateUsdValue`, the price fetch, polling with fallback, localStorage and the JSON cache, audio, clipboard, QR and toast code: I/O and DOM.
- Feed.UpdateTransactions: the rendered HTML and `toLocaleString` amounts. Each row is modelled as its hash, its new mark and its age.
- Particle physics:
  - positions, angles and the mouse lensing (cos, sin, sqrt);
  - star twinkle and gravity;
  - sizes, colours, friction, blend modes and canvas transforms.
- Animation.BurstFrame: `animateCelebration` reschedules itself while particles remain. It is started directly by every trigger, so two bursts in quick succession can run two loops at once. The model counts frames, not these loops.
- Animation.BurstDrainsIn100Frames: life and decay are real numbers. IEEE double rounding of `life -= decay` could leave a particle alive for one more frame.
- Animation.BlackholeFrame: `Math.random() > 0.8` and the spawn parameters are inputs.

## Findings

| source | as written | input that shows it | evidently intended | confidence | as-written member | corrected member |
|---|---|---|---|---|---|---|
| vanity_burn.py:103-105 | the error message for a prefix not starting with 'D' reads `prefix[0]`, which raises IndexError for the empty prefix instead of returning None | `create_burn_address("")` | reject the empty prefix with None like every other invalid prefix | not executed | BurnSearch.CheckBurnPrefixAsWritten | BurnSearch.CheckBurnPrefix |
| vanity_burn.py:117-118 | a prefix is refused as too long only when `filler_len < 0`, so 30 characters pass, but the refusal reports "Max is {target_len - suffix_len - 1}", that is 29 | `create_burn_address("D" + "1" * 29)` is accepted with no filler, while a 31-character prefix is told the maximum is 29 | report the maximum as `target_len - suffix_len`, 30, the longest prefix accepted | not executed | BurnSearch.ReportedMaxUnderstates | BurnSearch.ReportedMaxIsExact |

=== FILE: address.dfy ===
/** Dogecoin P2PKH addresses: the 25-byte layout version ‖ hash160 ‖ checksum
    and its Base58 text, as built by `create_address_from_hash`
    (mine_vanity.py) and checked by `verify_address` (vanity_burn.py).
    The hash functions are abstract: the checksum is a parameter standing
    for the first four bytes of double SHA-256. */
module Address {

  import opened Wrappers
  import opened Text
  import opened Radix
  import opened Base58

  /** Dogecoin's P2PKH version byte. */
  const DogeVersion: byte := 0x1e

  /** Bytes in an address: version, 20-byte hash, 4-byte checksum. */
  const AddressLength: nat := 25
  const PayloadLength: nat := 21

  type Digest4 = s: seq<byte> | |s| == 4 witness [0, 0, 0, 0]
  type Hash20 = s: seq<byte> | |s| == 20 witness seq(20, _ => 0)

  /** `double_sha256(payload)[:4]`, left abstract. */
  type Checksum = seq<byte> -> Digest4

  /** `bytes([DOGE_VERSION]) + pubkey_hash`. */
  function VersionedPayload(hash: Hash20): (p: seq<byte>)
    ensures |p| == PayloadLength && p[0] == DogeVersion && p[1..] == hash
  {
    [DogeVersion] + hash
  }

  /** `versioned + checksum`: the 25 address bytes. */
  function AddressBytes(hash: Hash20, checksum: Checksum): (b: seq<byte>)
    ensures |b| == AddressLength
    ensures b[..PayloadLength] == VersionedPayload(hash)
    ensures b[PayloadLength..] == checksum(VersionedPayload(hash))
  {
    var versioned := VersionedPayload(hash);
    versioned + checksum(versioned)
  }

  /** The trailing four bytes of a 25-byte string are the checksum of the
      leading 21. */
  predicate ChecksumHolds(b: seq<byte>, checksum: Checksum)
    requires |b| == AddressLength
  {
    b[PayloadLength..] == checksum(b[..PayloadLength])
  }

  /** create_address_from_hash: every address built from a 20-byte hash is a
      34-character Base58 string starting with 'D' that decodes back to
      exactly the 25 bytes 0x1e ‖ hash ‖ checksum. */
  function CreateAddressFromHash(hash: Hash20, checksum: Checksum): (address: string)
    ensures IsBase58(address)
    ensures |address| == 34 && address[0] == 'D'
    ensures Decode(address) == Ok(AddressBytes(hash, checksum))
  {
    var b := AddressBytes(hash, checksum);
    DecodeEncode(b);
    VersionByteGivesD(b);
    Encode(b)
  }

  lemma PowerConstants()
    ensures Pow(58, 33) == 15599970876632771988160814054146447252125923204784443097088
    ensures Pow(256, 24) == 6277101735386680763835789423207666416102355444464034512896
  {
    assert Pow(58, 8) == 128063081718016;
    PowAdd(58, 8, 8);
    PowAdd(58, 16, 16);
    PowAdd(58, 32, 1);
    assert Pow(256, 8) == 18446744073709551616;
    PowAdd(256, 8, 8);
    PowAdd(256, 16, 8);
  }

  /** With version byte 0x1e the 25-byte value lies in
      [12 * 58^33, 13 * 58^33), so its encoding has 34 digits led by digit 12, 'D'. */
  lemma VersionByteGivesD(b: seq<byte>)
    requires |b| == AddressLength && b[0] == DogeVersion
    ensures |Encode(b)| == 34 && Encode(b)[0] == 'D'
  {
    var v := BytesValue(b);
    assert b == [b[0]] + b[1..];
    FromDigitsCons(b[0], b[1..], 256);
    assert AllBelow(b[1..], 256);
    FromDigitsUpper(b[1..], 256);
    PowerConstants();
    assert 30 * Pow(256, 24) <= v < 31 * Pow(256, 24);
    LengthAndLeadingDigit(v, 58, 34, 12);
    assert CountLeading(b, 0) == 0;
    var ds := ToDigits(v, 58);
    assert Encode(b) == Spell(ds);
    AlphabetRuns();
    assert Alphabet[12] == UpperRunA[3] == 'D';
  }

  /** `b'\x00' * (n - len(d)) + d` when `d` is shorter than `n`, else `d`. */
  function LeftPad(d: seq<byte>, n: nat): (p: seq<byte>)
    ensures |d| < n ==> |p| == n && p[n - |d|..] == d && BytesValue(p) == BytesValue(d)
    ensures |d| < n ==> forall i :: 0 <= i < n - |d| ==> p[i] == 0
    ensures |d| >= n ==> p == d
  {
    if |d| < n then
      var zeros: seq<byte> := Zeros(n - |d|);
      FromDigitsLeadingZeros(n - |d|, d, 256);
      zeros + d
    else d
  }

  /** verify_address (vanity_burn.py): false on any decoding error, false when
      the decoding is longer than 25 bytes, otherwise whether the zero-padded
      25 bytes carry a matching checksum. Never fails. */
  function VerifyAddress(address: string, checksum: Checksum): (ok: bool)
    ensures !IsBase58(address) ==> !ok
    ensures ok <==> Decode(address).Ok? && |Decode(address).value| <= AddressLength
                    && ChecksumHolds(LeftPad(Decode(address).value, AddressLength), checksum)
  {
    match Decode(address)
    case Err(_) => false
    case Ok(decoded) =>
      var padded := LeftPad(decoded, AddressLength);
      if |padded| != AddressLength then false
      else padded[PayloadLength..] == checksum(padded[..PayloadLength])
  }

  /** Every address built from a hash passes verification. */
  lemma CreatedAddressVerifies(hash: Hash20, checksum: Checksum)
    ensures VerifyAddress(CreateAddressFromHash(hash, checksum), checksum)
  {
    var b := AddressBytes(hash, checksum);
    assert LeftPad(b, AddressLength) == b;
  }
}

=== FILE: animation.dfy ===
/** The bookkeeping skeleton of script.js's canvas animations: the start
    guards of the starfield and black-hole loops, the pending-frame counts they
    keep at one, the black hole's sink of at most 150 particles, the 150-particle
    celebration burst, the removal thresholds, and the reduced-motion switch.
    `Math.random()` results are parameters in [0, 1); positions, angles,
    colours and drawing are not modelled. */
module Animation {

  /** A particle spiralling into the black hole: only its distance from the
      centre and its inward speed matter to the bookkeeping. */
  datatype SinkParticle = SinkParticle(distance: real, speed: real)

  /** A celebration particle: it fades by `decay` per frame. */
  datatype BurstParticle = BurstParticle(life: real, decay: real)

  /** The animation state of the page. `starLoops` and `blackholeLoops` count
      the frame callbacks handed to `requestAnimationFrame` and not yet run. */
  datatype Engine = Engine(
    reducedMotion: bool,
    starfieldAnimating: bool,
    blackholeAnimating: bool,
    starLoops: nat,
    blackholeLoops: nat,
    sink: seq<SinkParticle>,
    burst: seq<BurstParticle>)

  const SinkCapacity: nat := 150
  const SpawnThreshold: real := 0.8
  const EventHorizon: real := 30.0
  const CelebrationCount: nat := 150
  const MinDecay: real := 0.01
  const MaxDecay: real := 0.03

  /** `Math.random()` results. */
  predicate IsRoll(u: real)
  {
    0.0 <= u < 1.0
  }

  predicate SinkParticleValid(p: SinkParticle)
  {
    p.distance >= EventHorizon && 0.3 <= p.speed < 0.8
  }

  predicate BurstParticleValid(p: BurstParticle)
  {
    0.0 < p.life <= 1.0 && MinDecay <= p.decay < MaxDecay
  }

  /** What the page maintains between frames: at most one pending frame per
      loop, exactly while its flag is set; at most 150 sink particles, none
      inside the event horizon; every burst particle still visible. */
  predicate Valid(e: Engine)
  {
    && e.starLoops == (if e.starfieldAnimating then 1 else 0)
    && e.blackholeLoops == (if e.blackholeAnimating then 1 else 0)
    && |e.sink| <= SinkCapacity
    && (forall i :: 0 <= i < |e.sink| ==> SinkParticleValid(e.sink[i]))
    && (forall i :: 0 <= i < |e.burst| ==> BurstParticleValid(e.burst[i]))
  }

  /** startStarfield: does nothing under reduced motion or while the loop
      runs; otherwise sets the flag and schedules one frame. */
  function StartStarfield(e: Engine): (r: Engine)
    ensures Valid(e) ==> Valid(r)
    ensures e.reducedMotion || e.starfieldAnimating ==> r == e
    ensures !e.reducedMotion ==> r.starfieldAnimating
    ensures r.starLoops == e.starLoops + (if r.starfieldAnimating == e.starfieldAnimating then 0 else 1)
    ensures r.(starfieldAnimating := e.starfieldAnimating, starLoops := e.starLoops) == e
  {
    if e.reducedMotion || e.starfieldAnimating then e
    else e.(starfieldAnimating := true, starLoops := e.starLoops + 1)
  }

  /** startBlackhole: the same guard for the black-hole loop. */
  function StartBlackhole(e: Engine): (r: Engine)
    ensures Valid(e) ==> Valid(r)
    ensures e.reducedMotion || e.blackholeAnimating ==> r == e
    ensures !e.reducedMotion ==> r.blackholeAnimating
    ensures r.blackholeLoops == e.blackholeLoops + (if r.blackholeAnimating == e.blackholeAnimating then 0 else 1)
    ensures r.(blackholeAnimating := e.blackholeAnimating, blackholeLoops := e.blackholeLoops) == e
  {
    if e.reducedMotion || e.blackholeAnimating then e
    else e.(blackholeAnimating := true, blackholeLoops := e.blackholeLoops + 1)
  }

  /** Starting twice is starting once: a second call never schedules a second loop. */
  lemma StartIdempotent(e: Engine)
    ensures StartStarfield(StartStarfield(e)) == StartStarfield(e)
    ensures StartBlackhole(StartBlackhole(e)) == StartBlackhole(e)
    ensures StartStarfield(e).starLoops <= e.starLoops + 1
  {
  }

  /** The page as loaded: both loops started unless reduced motion is preferred. */
  function Boot(reducedMotion: bool): (r: Engine)
    ensures Valid(r)
    ensures r.starfieldAnimating && r.blackholeAnimating <==> !reducedMotion
    ensures r.sink == [] && r.burst == []
  {
    StartBlackhole(StartStarfield(Engine(reducedMotion, false, false, 0, 0, [], [])))
  }

  /** One run of the starfield frame callback (animateStarfield): under
      reduced motion it clears the flag and does not reschedule; otherwise it
      reschedules itself. Star motion is not modelled. */
  function StarfieldFrame(e: Engine): (r: Engine)
    requires e.starLoops > 0
    ensures Valid(e) ==> Valid(r)
    ensures e.reducedMotion ==> r == e.(starfieldAnimating := false, starLoops := e.starLoops - 1)
    ensures !e.reducedMotion ==> r == e
  {
    if e.reducedMotion then e.(starfieldAnimating := false, starLoops := e.starLoops - 1)
    else e
  }

  /** The particles of `ps` that survive one frame, each advanced by `step`,
      in their original order. */
  function Survivors<P>(ps: seq<P>, step: P -> P, alive: P -> bool): (r: seq<P>)
    ensures |r| <= |ps|
    ensures forall j :: 0 <= j < |r| ==> alive(r[j])
  {
    if |ps| == 0 then []
    else
      var rest := Survivors(ps[1..], step, alive);
      var q := step(ps[0]);
      if alive(q) then [q] + rest else rest
  }

  /** The survivors are exactly the advanced particles that are still alive. */
  lemma {:induction false} SurvivorsMembers<P>(ps: seq<P>, step: P -> P, alive: P -> bool)
    ensures forall j :: 0 <= j < |Survivors(ps, step, alive)| ==>
              exists i :: 0 <= i < |ps| && Survivors(ps, step, alive)[j] == step(ps[i])
    ensures forall i :: 0 <= i < |ps| && alive(step(ps[i])) ==> step(ps[i]) in Survivors(ps, step, alive)
  {
    if |ps| > 0 {
      var rest := Survivors(ps[1..], step, alive);
      SurvivorsMembers(ps[1..], step, alive);
      var r := Survivors(ps, step, alive);
      forall j | 0 <= j < |r|
        ensures exists i :: 0 <= i < |ps| && r[j] == step(ps[i])
      {
        if alive(step(ps[0])) && j == 0 {
          assert r[0] == step(ps[0]);
        } else {
          var k := if alive(step(ps[0])) then j - 1 else j;
          assert r[j] == rest[k];
          var i :| 0 <= i < |ps[1..]| && rest[k] == step(ps[1..][i]);
          assert r[j] == step(ps[i + 1]);
        }
      }
      forall i | 0 <= i < |ps| && alive(step(ps[i]))
        ensures step(ps[i]) in r
      {
        if i > 0 {
          assert ps[i] == ps[1..][i - 1];
        }
      }
    } else {
      assert |Survivors(ps, step, alive)| == 0;
    }
  }

  /** Peeling the first particle off a suffix. */
  lemma SurvivorsUnfold<P>(ps: seq<P>, i: nat, step: P -> P, alive: P -> bool)
    requires i < |ps|
    ensures Survivors(ps[i..], step, alive)
         == (if alive(step(ps[i])) then [step(ps[i])] else []) + Survivors(ps[i + 1..], step, alive)
  {
    assert ps[i..][1..] == ps[i + 1..];
  }

  /** One iteration of the backward frame loop at index `k - 1`: splicing a
      dead particle out, or overwriting a live one with its advanced state,
      extends the processed suffix by one particle. */
  lemma SweepStep<P>(ps: seq<P>, out: seq<P>, k: nat, step: P -> P, alive: P -> bool)
    requires 0 < k <= |ps| && out == ps[..k] + Survivors(ps[k..], step, alive)
    ensures k - 1 < |out| && out[k - 1] == ps[k - 1]
    ensures !alive(step(ps[k - 1])) ==> out[..k - 1] + out[k..] == ps[..k - 1] + Survivors(ps[k - 1..], step, alive)
    ensures alive(step(ps[k - 1])) ==> out[k - 1 := step(ps[k - 1])] == ps[..k - 1] + Survivors(ps[k - 1..], step, alive)
  {
    var i := k - 1;
    SurvivorsUnfold(ps, i, step, alive);
    var tail := Survivors(ps[k..], step, alive);
    assert out[..i] == ps[..i];
    assert out[k..] == tail;
    assert out[i := step(ps[i])] == ps[..i] + [step(ps[i])] + tail;
  }

  /** The frame loop `for (let i = ps.length - 1; i >= 0; i--)` that advances
      `ps[i]` and splices it out when it is no longer alive; it leaves exactly
      the survivors, in order. */
  method Sweep<P>(ps: seq<P>, step: P -> P, alive: P -> bool) returns (out: seq<P>)
    ensures out == Survivors(ps, step, alive)
  {
    out := ps;
    var k := |ps|;
    assert ps[k..] == [];
    while k > 0
      invariant k <= |ps|
      invariant out == ps[..k] + Survivors(ps[k..], step, alive)
    {
      var i := k - 1;
      SweepStep(ps, out, k, step, alive);
      var q := step(out[i]);
      if !alive(q) {
        out := out[..i] + out[i + 1..];
      } else {
        out := out[i := q];
      }
      k := i;
    }
    assert ps[0..] == ps;
  }

  function SinkStep(p: SinkParticle): (r: SinkParticle)
    ensures r.speed == p.speed
    ensures SinkParticleValid(p) ==> p.distance - 0.8 < r.distance <= p.distance - 0.3
  {
    p.(distance := p.distance - p.speed)
  }

  /** A sink particle is absorbed once it is closer than 30 to the centre. */
  predicate SinkAlive(p: SinkParticle): (alive: bool)
    ensures alive <==> p.distance >= EventHorizon
  {
    !(p.distance < EventHorizon)
  }

  /** createParticle: distance 180 + 50u, speed 0.3 + 0.5u'. */
  function NewSinkParticle(u1: real, u2: real): (p: SinkParticle)
    requires IsRoll(u1) && IsRoll(u2)
    ensures 180.0 <= p.distance < 230.0 && SinkParticleValid(p)
  {
    SinkParticle(180.0 + u1 * 50.0, 0.3 + u2 * 0.5)
  }

  /** One run of animateBlackhole. Under reduced motion: clear the flag and
      stop. Otherwise: admit one new particle when fewer than 150 are held and
      the roll exceeds 0.8, then advance every particle and remove the absorbed
      ones before drawing. */
  function BlackholeFrame(e: Engine, roll: real, u1: real, u2: real): (r: Engine)
    requires e.blackholeLoops > 0
    requires IsRoll(roll) && IsRoll(u1) && IsRoll(u2)
    ensures Valid(e) ==> Valid(r)
    ensures e.reducedMotion ==> r == e.(blackholeAnimating := false, blackholeLoops := e.blackholeLoops - 1)
    ensures !e.reducedMotion ==> r.(sink := e.sink) == e
    ensures !e.reducedMotion ==> forall j :: 0 <= j < |r.sink| ==> r.sink[j].distance >= EventHorizon
    ensures !e.reducedMotion && (|e.sink| >= SinkCapacity || roll <= SpawnThreshold) ==> |r.sink| <= |e.sink|
    ensures |r.sink| <= |e.sink| + 1
    ensures !e.reducedMotion ==> forall i :: 0 <= i < |e.sink| && SinkAlive(SinkStep(e.sink[i])) ==> SinkStep(e.sink[i]) in r.sink
    ensures !e.reducedMotion && |e.sink| < SinkCapacity && roll > SpawnThreshold ==> SinkStep(NewSinkParticle(u1, u2)) in r.sink
  {
    if e.reducedMotion then
      e.(blackholeAnimating := false, blackholeLoops := e.blackholeLoops - 1)
    else
      var admit := |e.sink| < SinkCapacity && roll > SpawnThreshold;
      var admitted := if admit then e.sink + [NewSinkParticle(u1, u2)] else e.sink;
      var r := e.(sink := Survivors(admitted, SinkStep, SinkAlive));
      SinkSurvivorsValid(admitted);
      SurvivorsMembers(admitted, SinkStep, SinkAlive);
      assert forall i :: 0 <= i < |e.sink| ==> admitted[i] == e.sink[i];
      assert admit ==> admitted[|e.sink|] == NewSinkParticle(u1, u2);
      r
  }

  /** A blackhole frame invents nothing: every particle it leaves is an old
      particle or the admitted one, advanced by one step. */
  lemma BlackholeFrameOnlyAdvances(e: Engine, roll: real, u1: real, u2: real)
    requires e.blackholeLoops > 0 && !e.reducedMotion
    requires IsRoll(roll) && IsRoll(u1) && IsRoll(u2)
    ensures var r := BlackholeFrame(e, roll, u1, u2);
            forall j :: 0 <= j < |r.sink| ==>
              || (exists i :: 0 <= i < |e.sink| && r.sink[j] == SinkStep(e.sink[i]))
              || (|e.sink| < SinkCapacity && roll > SpawnThreshold && r.sink[j] == SinkStep(NewSinkParticle(u1, u2)))
  {
    var admit := |e.sink| < SinkCapacity && roll > SpawnThreshold;
    var admitted := if admit then e.sink + [NewSinkParticle(u1, u2)] else e.sink;
    var r := BlackholeFrame(e, roll, u1, u2);
    assert r.sink == Survivors(admitted, SinkStep, SinkAlive);
    SurvivorsMembers(admitted, SinkStep, SinkAlive);
    forall j | 0 <= j < |r.sink|
      ensures || (exists i :: 0 <= i < |e.sink| && r.sink[j] == SinkStep(e.sink[i]))
              || (admit && r.sink[j] == SinkStep(NewSinkParticle(u1, u2)))
    {
      var k :| 0 <= k < |admitted| && r.sink[j] == SinkStep(admitted[k]);
      if k < |e.sink| {
        assert admitted[k] == e.sink[k];
      }
    }
  }

  /** Survivors of a frame are outside the event horizon and keep their speed. */
  lemma SinkSurvivorsValid(ps: seq<SinkParticle>)
    ensures (forall i :: 0 <= i < |ps| ==> 0.3 <= ps[i].speed < 0.8) ==>
            forall j :: 0 <= j < |Survivors(ps, SinkStep, SinkAlive)| ==> SinkParticleValid(Survivors(ps, SinkStep, SinkAlive)[j])
  {
    var r := Survivors(ps, SinkStep, SinkAlive);
    SurvivorsMembers(ps, SinkStep, SinkAlive);
    forall j | 0 <= j < |r| && forall i :: 0 <= i < |ps| ==> 0.3 <= ps[i].speed < 0.8
      ensures SinkParticleValid(r[j])
    {
      var i :| 0 <= i < |ps| && r[j] == SinkStep(ps[i]);
      assert SinkAlive(r[j]);
    }
  }

  /** The sink never exceeds its capacity, whatever the rolls. */
  lemma SinkCapacityKept(e: Engine, roll: real, u1: real, u2: real)
    requires Valid(e) && e.blackholeLoops > 0
    requires IsRoll(roll) && IsRoll(u1) && IsRoll(u2)
    ensures |BlackholeFrame(e, roll, u1, u2).sink| <= SinkCapacity
  {
  }

  function BurstStep(p: BurstParticle): (r: BurstParticle)
    ensures r.decay == p.decay
    ensures BurstParticleValid(p) ==> p.life - MaxDecay < r.life <= p.life - MinDecay
  {
    p.(life := p.life - p.decay)
  }

  /** A burst particle is removed once its life is no longer positive. */
  predicate BurstAlive(p: BurstParticle): (alive: bool)
    ensures alive <==> p.life > 0.0
  {
    !(p.life <= 0.0)
  }

  /** triggerCelebration: nothing under reduced motion; otherwise exactly 150
      new particles at full life, each decaying by 0.01 + 0.02u per frame. */
  function TriggerCelebration(e: Engine, rolls: seq<real>): (r: Engine)
    requires |rolls| >= CelebrationCount && forall i :: 0 <= i < |rolls| ==> IsRoll(rolls[i])
    ensures Valid(e) ==> Valid(r)
    ensures e.reducedMotion ==> r == e
    ensures !e.reducedMotion ==> && r.(burst := e.burst) == e
                                 && |r.burst| == |e.burst| + CelebrationCount
                                 && r.burst[..|e.burst|] == e.burst
    ensures forall j :: |e.burst| <= j < |r.burst| ==> r.burst[j].life == 1.0 && MinDecay <= r.burst[j].decay < MaxDecay
  {
    if e.reducedMotion then e
    else
      var spawned := seq(CelebrationCount, i requires 0 <= i < CelebrationCount => BurstParticle(1.0, 0.01 + rolls[i] * 0.02));
      assert forall j :: 0 <= j < CelebrationCount ==> BurstParticleValid(spawned[j]) by {
        forall j | 0 <= j < CelebrationCount
          ensures BurstParticleValid(spawned[j])
        {
          DecayInRange(rolls[j]);
        }
      }
      assert (e.burst + spawned)[..|e.burst|] == e.burst;
      e.(burst := e.burst + spawned)
  }

  lemma DecayInRange(u: real)
    requires IsRoll(u)
    ensures MinDecay <= 0.01 + u * 0.02 < MaxDecay
  {
  }

  /** One run of animateCelebration: nothing under reduced motion; otherwise
      every particle fades by its decay and the faded-out ones are removed. */
  function BurstFrame(e: Engine): (r: Engine)
    ensures Valid(e) ==> Valid(r)
    ensures e.reducedMotion ==> r == e
    ensures r.(burst := e.burst) == e
    ensures !e.reducedMotion ==> forall j :: 0 <= j < |r.burst| ==> r.burst[j].life > 0.0
    ensures !e.reducedMotion ==> forall i :: 0 <= i < |e.burst| && BurstAlive(BurstStep(e.burst[i])) ==> BurstStep(e.burst[i]) in r.burst
  {
    if e.reducedMotion then e
    else
      BurstSurvivorsValid(e.burst);
      SurvivorsMembers(e.burst, BurstStep, BurstAlive);
      e.(burst := Survivors(e.burst, BurstStep, BurstAlive))
  }

  /** A celebration frame invents nothing: every particle it leaves is an old
      particle after one decay. */
  lemma BurstFrameOnlyAdvances(e: Engine)
    requires !e.reducedMotion
    ensures forall j :: 0 <= j < |BurstFrame(e).burst| ==>
              exists i :: 0 <= i < |e.burst| && BurstFrame(e).burst[j] == BurstStep(e.burst[i])
  {
    assert BurstFrame(e).burst == Survivors(e.burst, BurstStep, BurstAlive);
    SurvivorsMembers(e.burst, BurstStep, BurstAlive);
  }

  lemma BurstSurvivorsValid(ps: seq<BurstParticle>)
    ensures (forall i :: 0 <= i < |ps| ==> BurstParticleValid(ps[i])) ==>
            forall j :: 0 <= j < |Survivors(ps, BurstStep, BurstAlive)| ==> BurstParticleValid(Survivors(ps, BurstStep, BurstAlive)[j])
  {
    var r := Survivors(ps, BurstStep, BurstAlive);
    SurvivorsMembers(ps, BurstStep, BurstAlive);
    forall j | 0 <= j < |r| && forall i :: 0 <= i < |ps| ==> BurstParticleValid(ps[i])
      ensures BurstParticleValid(r[j])
    {
      var i :| 0 <= i < |ps| && r[j] == BurstStep(ps[i]);
      assert BurstAlive(r[j]);
    }
  }

  /** `n` consecutive celebration frames. */
  function BurstFrames(e: Engine, n: nat): Engine
    decreases n
  {
    if n == 0 then e else BurstFrames(BurstFrame(e), n - 1)
  }

  /** Every particle's life is at most `k` hundredths and it decays by at least 0.01. */
  predicate LifeAtMost(ps: seq<BurstParticle>, k: nat)
  {
    forall i :: 0 <= i < |ps| ==> ps[i].life <= k as real * 0.01 && ps[i].decay >= MinDecay
  }

  lemma SurvivorsLoseAHundredth(ps: seq<BurstParticle>, k: nat)
    requires k >= 1 && LifeAtMost(ps, k)
    ensures LifeAtMost(Survivors(ps, BurstStep, BurstAlive), k - 1)
  {
    var r := Survivors(ps, BurstStep, BurstAlive);
    SurvivorsMembers(ps, BurstStep, BurstAlive);
    forall j | 0 <= j < |r|
      ensures r[j].life <= (k - 1) as real * 0.01 && r[j].decay >= MinDecay
    {
      var i :| 0 <= i < |ps| && r[j] == BurstStep(ps[i]);
    }
  }

  /** The particle list after `n` frames without reduced motion. */
  function BurstLives(ps: seq<BurstParticle>, n: nat): seq<BurstParticle>
    decreases n
  {
    if n == 0 then ps else BurstLives(Survivors(ps, BurstStep, BurstAlive), n - 1)
  }

  lemma {:induction false} FramesFollowLives(e: Engine, n: nat)
    requires !e.reducedMotion
    ensures BurstFrames(e, n) == e.(burst := BurstLives(e.burst, n))
    decreases n
  {
    if n > 0 {
      BurstFrameFades(e);
      FramesFollowLives(BurstFrame(e), n - 1);
    }
  }

  lemma BurstFrameFades(e: Engine)
    requires !e.reducedMotion
    ensures BurstFrame(e) == e.(burst := Survivors(e.burst, BurstStep, BurstAlive))
  {
  }

  lemma {:induction false} DrainsWithin(ps: seq<BurstParticle>, k: nat)
    requires LifeAtMost(ps, k)
    requires forall i :: 0 <= i < |ps| ==> ps[i].life > 0.0
    ensures BurstLives(ps, k) == []
    decreases k
  {
    if k > 0 {
      var next := Survivors(ps, BurstStep, BurstAlive);
      SurvivorsMembers(ps, BurstStep, BurstAlive);
      SurvivorsLoseAHundredth(ps, k);
      DrainsWithin(next, k - 1);
    }
  }

  /** A celebration burst is gone after 100 frames without reduced motion:
      each particle starts at life 1.0 and loses at least 0.01 per frame. */
  lemma BurstDrainsIn100Frames(e: Engine)
    requires Valid(e) && !e.reducedMotion
    ensures BurstFrames(e, 100).burst == []
  {
    DrainsWithin(e.burst, 100);
    FramesFollowLives(e, 100);
  }

  /** The reduced-motion change handler. Turning it on only sets the flag
      (the running loops notice it on their next frame and stop); turning it
      off restarts both loops through their start guards. */
  function SetReducedMotion(e: Engine, matches: bool): (r: Engine)
    ensures Valid(e) ==> Valid(r)
    ensures r.reducedMotion == matches
    ensures matches ==> r == e.(reducedMotion := true)
    ensures !matches ==> r.starfieldAnimating && r.blackholeAnimating
    ensures r.sink == e.sink && r.burst == e.burst
  {
    if matches then e.(reducedMotion := true)
    else StartBlackhole(StartStarfield(e.(reducedMotion := false)))
  }

  /** Toggling reduced motion off and on again never leaves a second frame
      callback pending for either loop. */
  lemma ToggleKeepsOneLoop(e: Engine, first: bool, second: bool)
    requires Valid(e)
    ensures SetReducedMotion(SetReducedMotion(e, first), second).starLoops <= 1
    ensures SetReducedMotion(SetReducedMotion(e, first), second).blackholeLoops <= 1
  {
    var m := SetReducedMotion(e, first);
    assert Valid(m);
  }
}

=== FILE: base58.dfy ===
/** Base58 text encoding of byte strings, as implemented (identically) by
    `base58_encode` / `base58_decode` in vanity_burn.py and `base58_encode`
    in mine_vanity.py: big-endian value in base 58, one '1' per leading zero
    byte. */
module Base58 {

  import opened Wrappers
  import opened Text
  import opened Radix

  type byte = b: nat | b < 256

  /** The 58-character alphabet "123456789ABCDEFGHJKLMNPQRSTUVWXYZabcdefghijkmnopqrstuvwxyz"
      (no '0', 'O', 'I', 'l'), written as its six contiguous character runs. */
  const DigitRun: string := "123456789"
  const UpperRunA: string := "ABCDEFGH"
  const UpperRunJ: string := "JKLMN"
  const UpperRunP: string := "PQRSTUVWXYZ"
  const LowerRunA: string := "abcdefghijk"
  const LowerRunM: string := "mnopqrstuvwxyz"
  const Alphabet: string := DigitRun + UpperRunA + UpperRunJ + UpperRunP + LowerRunA + LowerRunM

  /** `c` is a key of the source's `ALPHABET_DICT` (equivalently `c in ALPHABET`,
      see `DigitOfMember`). */
  predicate InAlphabet(c: char)
  {
    DigitOf(c) < 58
  }

  /** Every character of `s` is a Base58 digit. */
  predicate IsBase58(s: string)
  {
    forall i :: 0 <= i < |s| ==> InAlphabet(s[i])
  }

  /** The position of `c` in the alphabet (the source's `ALPHABET_DICT[c]` /
      `ALPHABET.index(c)`), and 58 for a character outside it. */
  function DigitOf(c: char): nat
  {
    if '1' <= c <= '9' then c as nat - '1' as nat
    else if 'A' <= c <= 'H' then c as nat - 'A' as nat + 9
    else if 'J' <= c <= 'N' then c as nat - 'J' as nat + 17
    else if 'P' <= c <= 'Z' then c as nat - 'P' as nat + 22
    else if 'a' <= c <= 'k' then c as nat - 'a' as nat + 33
    else if 'm' <= c <= 'z' then c as nat - 'm' as nat + 44
    else 58
  }

  predicate IsRun(s: string, first: char)
  {
    forall i :: 0 <= i < |s| ==> s[i] as int == first as int + i
  }

  lemma AlphabetRuns()
    ensures IsRun(DigitRun, '1') && IsRun(UpperRunA, 'A') && IsRun(UpperRunJ, 'J')
    ensures IsRun(UpperRunP, 'P') && IsRun(LowerRunA, 'a') && IsRun(LowerRunM, 'm')
  {
  }

  /** Indexing the alphabet selects the run the index falls in. */
  lemma AlphabetAt(i: nat)
    requires i < 58
    ensures |Alphabet| == 58
    ensures Alphabet[i] == if i < 9 then DigitRun[i]
                           else if i < 17 then UpperRunA[i - 9]
                           else if i < 22 then UpperRunJ[i - 17]
                           else if i < 33 then UpperRunP[i - 22]
                           else if i < 44 then LowerRunA[i - 33]
                           else LowerRunM[i - 44]
  {
  }

  /** `DigitOf` inverts indexing into the alphabet. */
  lemma AlphabetDigits()
    ensures |Alphabet| == 58
    ensures forall i :: 0 <= i < 58 ==> DigitOf(Alphabet[i]) == i
  {
    AlphabetRuns();
    forall i | 0 <= i < 58
      ensures DigitOf(Alphabet[i]) == i
    {
      AlphabetAt(i);
    }
  }

  /** A character is in the alphabet exactly when it has a digit value below 58,
      and indexing the alphabet by that value gives the character back. */
  lemma DigitOfMember(c: char)
    ensures c in Alphabet <==> DigitOf(c) < 58
    ensures c in Alphabet ==> Alphabet[DigitOf(c)] == c
  {
    AlphabetDigits();
    if c in Alphabet {
      var i :| 0 <= i < 58 && Alphabet[i] == c;
      assert DigitOf(c) == i;
    } else if DigitOf(c) < 58 {
      DigitIndexes(c);
    }
  }

  /** A character with a digit value sits at that position of the alphabet. */
  lemma DigitIndexes(c: char)
    requires DigitOf(c) < 58
    ensures Alphabet[DigitOf(c)] == c
  {
    AlphabetRuns();
    AlphabetAt(DigitOf(c));
  }

  /** The digit values of a string, one per character. */
  function Digits(s: string): (ds: seq<nat>)
    ensures |ds| == |s|
  {
    seq(|s|, i requires 0 <= i < |s| => DigitOf(s[i]))
  }

  /** The characters of a base-58 numeral. */
  function Spell(ds: seq<nat>): (s: string)
    requires AllBelow(ds, 58)
    ensures |s| == |ds|
  {
    AlphabetDigits();
    seq(|ds|, i requires 0 <= i < |ds| => Alphabet[ds[i]])
  }

  lemma SpellIsBase58(ds: seq<nat>)
    requires AllBelow(ds, 58)
    ensures IsBase58(Spell(ds)) && Digits(Spell(ds)) == ds
  {
    AlphabetDigits();
  }

  lemma DigitsOfBase58(s: string)
    requires IsBase58(s)
    ensures AllBelow(Digits(s), 58) && Spell(Digits(s)) == s
  {
    forall i | 0 <= i < |s|
      ensures Digits(s)[i] < 58 && Alphabet[Digits(s)[i]] == s[i]
    {
      DigitOfMember(s[i]);
    }
  }

  /** The big-endian value of a byte string (`int.from_bytes(data, 'big')`). */
  function BytesValue(data: seq<byte>): nat
  {
    FromDigits(data, 256)
  }

  /** The value of a Base58 numeral: `num = num * 58 + digit` over the characters. */
  function ValueOf(s: string): nat
  {
    FromDigits(Digits(s), 58)
  }

  /** The minimal big-endian bytes of `n`: the source's `num & 0xff` / `num >>= 8`
      loop, reversed. Empty for 0. */
  function MinimalBytes(n: nat): (b: seq<byte>)
    ensures Minimal(b) && BytesValue(b) == n
    ensures n == 0 <==> |b| == 0
  {
    ToDigits(n, 256)
  }

  /** base58_encode: the base-58 digits of the big-endian value, preceded by
      one '1' for each leading zero byte. */
  function Encode(data: seq<byte>): (s: string)
    ensures IsBase58(s)
    ensures CountLeading(s, '1') == CountLeading(data, 0)
    ensures ValueOf(s) == BytesValue(data)
    ensures |data| == 0 ==> s == ""
  {
    var ds := ToDigits(BytesValue(data), 58);
    var s := Repeat('1', CountLeading(data, 0)) + Spell(ds);
    OnesThenNumeral(CountLeading(data, 0), ds);
    s
  }

  /** The shape every encoding has: a run of '1's and then a minimal numeral. */
  lemma OnesThenNumeral(k: nat, ds: seq<nat>)
    requires AllBelow(ds, 58) && Minimal(ds)
    ensures IsBase58(Repeat('1', k) + Spell(ds))
    ensures Digits(Repeat('1', k) + Spell(ds)) == Zeros(k) + ds
    ensures CountLeading(Repeat('1', k) + Spell(ds), '1') == k
    ensures ValueOf(Repeat('1', k) + Spell(ds)) == FromDigits(ds, 58)
  {
    var s := Repeat('1', k) + Spell(ds);
    AlphabetDigits();
    SpellIsBase58(ds);
    assert DigitOf('1') == 0 && '1' == Alphabet[0];
    assert Digits(s) == Zeros(k) + ds;
    if |ds| > 0 {
      assert DigitOf(Spell(ds)[0]) == ds[0] != 0;
    }
    CountLeadingOfRun('1', k, Spell(ds));
    FromDigitsLeadingZeros(k, ds, 58);
  }

  /** The position and identity of the first character outside the alphabet. */
  function FirstInvalid(s: string): (r: Option<char>)
    ensures r.None? <==> IsBase58(s)
    ensures r.Some? ==> exists i :: 0 <= i < |s| && s[i] == r.value && !InAlphabet(s[i]) && IsBase58(s[..i])
  {
    if |s| == 0 then None
    else if !InAlphabet(s[0]) then
      assert s[0] == s[0] && IsBase58(s[..0]);
      Some(s[0])
    else
      var r := FirstInvalid(s[1..]);
      if r.Some? then
        var i :| 0 <= i < |s[1..]| && s[1..][i] == r.value && !InAlphabet(s[1..][i]) && IsBase58(s[1..][..i]);
        assert s[..i + 1] == [s[0]] + s[1..][..i];
        assert s[i + 1] == r.value;
        r
      else r
  }

  /** base58_decode: raises on the first character outside the alphabet;
      otherwise one zero byte per leading '1', then the minimal big-endian
      bytes of the numeral's value. */
  function Decode(s: string): (r: Result<seq<byte>, char>)
    ensures r.Err? <==> !IsBase58(s)
    ensures r.Err? ==> Some(r.error) == FirstInvalid(s)
    ensures r.Ok? ==> CountLeading(r.value, 0) == CountLeading(s, '1')
    ensures r.Ok? ==> Minimal(r.value[CountLeading(s, '1')..])
    ensures r.Ok? ==> BytesValue(r.value) == ValueOf(s)
  {
    match FirstInvalid(s)
    case Some(c) => Err(c)
    case None =>
      var pad := CountLeading(s, '1');
      var body := MinimalBytes(ValueOf(s));
      var zeros: seq<byte> := Zeros(pad);
      CountLeadingOfRun(0, pad, body);
      FromDigitsLeadingZeros(pad, body, 256);
      assert (zeros + body)[pad..] == body;
      Ok(zeros + body)
  }

  /** Decoding an encoding gives back the original bytes, leading zeros included. */
  lemma DecodeEncode(data: seq<byte>)
    ensures Decode(Encode(data)) == Ok(data)
  {
    var z := CountLeading(data, 0);
    var rest := data[z..];
    SplitLeading(data, 0);
    assert data == Zeros(z) + rest;
    FromDigitsLeadingZeros(z, rest, 256);
    var v := BytesValue(data);
    assert v == FromDigits(rest, 256);
    var ds := ToDigits(v, 58);
    OnesThenNumeral(z, ds);
    assert AllBelow(rest, 256);
    ToDigitsFromDigits(rest, 256);
    assert MinimalBytes(v) == rest;
  }

  /** Encoding a decoding gives back the original text, for every Base58 string. */
  lemma EncodeDecode(s: string)
    requires IsBase58(s)
    ensures Decode(s).Ok? && Encode(Decode(s).value) == s
  {
    var p := CountLeading(s, '1');
    var t := s[p..];
    SplitLeading(s, '1');
    assert IsBase58(t);
    DigitsOfBase58(t);
    var dt := Digits(t);
    assert Minimal(dt) by {
      if |t| > 0 {
        AlphabetDigits();
        assert t[0] != '1';
        DigitOfMember(t[0]);
        assert Alphabet[0] == '1';
      }
    }
    OnesThenNumeral(p, dt);
    assert Repeat('1', p) + Spell(dt) == s;
    var v := ValueOf(s);
    assert v == FromDigits(dt, 58);
    ToDigitsFromDigits(dt, 58);
    var d := Decode(s).value;
    assert CountLeading(d, 0) == p;
    assert BytesValue(d) == v;
  }
}

=== FILE: beauty.dfy ===
/** The two aesthetic scores for addresses: `calculate_beauty`
    (vanity_burn.py) and `calculate_beauty_score` (mine_vanity.py).
    Characters are ASCII; `islower` is 'a'..'z'. */
module Beauty {

  import opened Text

  predicate IsLower(c: char)
  {
    'a' <= c <= 'z'
  }

  /** The positions of `s` holding a lowercase letter. */
  function LowerPositions(s: string): set<int>
  {
    set i | 0 <= i < |s| && IsLower(s[i])
  }

  /** `sum(1 for c in address if c.islower())`, summed from the last
      character back: the number of positions holding a lowercase letter. */
  function LowercaseCount(s: string): (n: nat)
    ensures n <= |s|
    ensures n == |LowerPositions(s)|
    ensures n == 0 <==> forall i :: 0 <= i < |s| ==> !IsLower(s[i])
  {
    if |s| == 0 then
      assert LowerPositions(s) == {};
      0
    else
      var front := s[..|s| - 1];
      var rest := LowercaseCount(front);
      assert forall i :: 0 <= i < |s| - 1 ==> s[i] == front[i];
      assert |s| - 1 !in LowerPositions(front);
      assert LowerPositions(s) == LowerPositions(front) + (if IsLower(s[|s| - 1]) then {|s| - 1} else {});
      rest + (if IsLower(s[|s| - 1]) then 1 else 0)
  }

  /** The `n` positions of `s` starting at `i` all hold '1'. */
  predicate OnesRun(s: string, i: int, n: nat)
  {
    0 <= i && i + n <= |s| && forall k :: i <= k < i + n ==> s[k] == '1'
  }

  /** `m` is the length of the longest block of consecutive '1's in `s`. */
  ghost predicate IsLongestOnesRun(s: string, m: nat)
  {
    && (exists i :: OnesRun(s, i, m))
    && (forall i, n: nat :: OnesRun(s, i, n) ==> n <= m)
  }

  /** The source's `current` counter after scanning `s`: the number of '1's
      ending the string. */
  function TrailingOnes(s: string): (t: nat)
    ensures t <= |s| && OnesRun(s, |s| - t, t)
    ensures t < |s| ==> s[|s| - t - 1] != '1'
  {
    if |s| == 0 || s[|s| - 1] != '1' then 0
    else TrailingOnes(s[..|s| - 1]) + 1
  }

  /** The source's `max_consec` loop: the running maximum of `current`. */
  function LongestOnesRun(s: string): (m: nat)
    ensures IsLongestOnesRun(s, m)
  {
    if |s| == 0 then
      assert OnesRun(s, 0, 0);
      0
    else
      var prev := LongestOnesRun(s[..|s| - 1]);
      var cur := TrailingOnes(s);
      var m := if cur > prev then cur else prev;
      LongestRunExtends(s, prev, cur, m);
      m
  }

  lemma LongestRunExtends(s: string, prev: nat, cur: nat, m: nat)
    requires |s| > 0
    requires IsLongestOnesRun(s[..|s| - 1], prev)
    requires cur == TrailingOnes(s)
    requires m == if cur > prev then cur else prev
    ensures IsLongestOnesRun(s, m)
  {
    var init := s[..|s| - 1];
    assert forall k :: 0 <= k < |init| ==> s[k] == init[k];
    if cur > prev {
      assert OnesRun(s, |s| - m, m);
    } else {
      var i :| OnesRun(init, i, prev);
      assert OnesRun(s, i, prev);
    }
    forall i, n: nat | OnesRun(s, i, n)
      ensures n <= m
    {
      if i + n < |s| {
        assert OnesRun(init, i, n);
      } else {
        RunAtEndIsTrailing(s, i, n);
      }
    }
  }

  /** A run of '1's reaching the end of `s` is no longer than the trailing run. */
  lemma {:induction false} RunAtEndIsTrailing(s: string, i: int, n: nat)
    requires OnesRun(s, i, n) && i + n == |s|
    ensures n <= TrailingOnes(s)
  {
    if n > 0 {
      var init := s[..|s| - 1];
      assert OnesRun(init, i, n - 1);
      RunAtEndIsTrailing(init, i, n - 1);
    }
  }

  /** The last three characters are equal. */
  predicate TripleEnding(s: string)
  {
    |s| >= 3 && s[|s| - 1] == s[|s| - 2] == s[|s| - 3]
  }

  /** calculate_beauty (vanity_burn.py): 5 per '1', 10 per '1' in the longest
      run of '1's, 25 for three equal final characters, minus 1 per lowercase
      letter. */
  function CalculateBeauty(address: string): (score: int)
    ensures exists m: nat ::
              && IsLongestOnesRun(address, m)
              && score == 5 * multiset(address)['1'] + 10 * m
                          + (if TripleEnding(address) then 25 else 0) - LowercaseCount(address)
  {
    var ones := Count(address, '1');
    var maxConsec := LongestOnesRun(address);
    var bonus := if |address| >= 3 && address[|address| - 1] == address[|address| - 2] == address[|address| - 3] then 25 else 0;
    ones * 5 + maxConsec * 10 + bonus - LowercaseCount(address)
  }

  /** The repeating-end bonus of calculate_beauty_score: 25 for three equal
      final characters, otherwise 10 when only the final two agree. */
  function RepeatBonus(s: string): (b: nat)
    ensures b == 0 || b == 10 || b == 25
    ensures b == 25 <==> TripleEnding(s)
    ensures b == 10 <==> |s| >= 3 && s[|s| - 2] == s[|s| - 1] && !TripleEnding(s)
  {
    if |s| >= 3 then
      var lastThree := s[|s| - 3..];
      if lastThree[0] == lastThree[1] == lastThree[2] then 25
      else if lastThree[1] == lastThree[2] then 10
      else 0
    else 0
  }

  const NiceEndings: seq<string> := ["111", "777", "888", "999", "RIP", "END", "Wow"]

  /** Distinct strings, all three characters long. */
  predicate DistinctTriples(es: seq<string>)
  {
    && (forall i :: 0 <= i < |es| ==> |es[i]| == 3)
    && (forall i, j :: 0 <= i < j < |es| ==> es[i] != es[j])
  }

  lemma NiceEndingsAreDistinctTriples()
    ensures DistinctTriples(NiceEndings)
  {
  }

  /** Two suffixes of the same length are the same string. */
  lemma SuffixesOfSameLength(s: string, e1: string, e2: string)
    requires EndsWith(s, e1) && EndsWith(s, e2) && |e1| == |e2|
    ensures e1 == e2
  {
  }

  /** 20 for every ending in `es` that `s` ends with. */
  function EndingBonus(s: string, es: seq<string>): (b: nat)
    requires DistinctTriples(es)
    ensures b == 0 || b == 20
    ensures b == 20 <==> exists i :: 0 <= i < |es| && EndsWith(s, es[i])
  {
    if |es| == 0 then 0
    else
      var rest := EndingBonus(s, es[1..]);
      assert forall i :: 1 <= i < |es| ==> es[i] == es[1..][i - 1];
      if EndsWith(s, es[0]) then
        OnlyOneEnding(s, es);
        20 + rest
      else rest
  }

  /** Once `s` ends with the first of several distinct triples it ends with no other. */
  lemma OnlyOneEnding(s: string, es: seq<string>)
    requires DistinctTriples(es) && |es| > 0 && EndsWith(s, es[0])
    ensures forall i :: 1 <= i < |es| ==> !EndsWith(s, es[i])
  {
    forall i | 1 <= i < |es|
      ensures !EndsWith(s, es[i])
    {
      if EndsWith(s, es[i]) {
        SuffixesOfSameLength(s, es[0], es[i]);
      }
    }
  }

  /** At most one of the seven nice endings can match, so that bonus is 0 or 20. */
  function NiceEndingBonus(s: string): (b: nat)
    ensures b == 0 || b == 20
    ensures b == 20 <==> exists e :: e in NiceEndings && EndsWith(s, e)
  {
    NiceEndingsAreDistinctTriples();
    EndingBonus(s, NiceEndings)
  }

  predicate IsPalindrome(t: string)
  {
    forall i :: 0 <= i < |t| ==> t[i] == t[|t| - 1 - i]
  }

  /** 30 when the last six characters (all of them, if fewer) read the same
      backwards; `suffix == suffix[::-1]`. */
  function PalindromeBonus(s: string): (b: nat)
    ensures b == 0 || b == 30
    ensures b == 30 <==> IsPalindrome(LastN(s, 6))
  {
    var suffix := LastN(s, 6);
    if suffix == Reverse(suffix) then 30 else 0
  }

  /** calculate_beauty_score (mine_vanity.py): 10 per '1' in the longest run,
      3 per '1', minus 1 per lowercase letter, plus end bonuses that together
      never exceed 75 (repeat 25 or 10, one nice ending 20, palindrome 30). */
  function CalculateBeautyScore(address: string): (score: int)
    ensures exists m: nat ::
              && IsLongestOnesRun(address, m)
              && score == 10 * m + 3 * multiset(address)['1'] - LowercaseCount(address)
                          + RepeatBonus(address) + NiceEndingBonus(address) + PalindromeBonus(address)
              && 0 <= score - (10 * m + 3 * multiset(address)['1'] - LowercaseCount(address)) <= 75
  {
    var maxOnes := LongestOnesRun(address);
    var totalOnes := Count(address, '1');
    var lower := LowercaseCount(address);
    var repeat := RepeatBonus(address);
    var nice := NiceEndingBonus(address);
    var palindrome := PalindromeBonus(address);
    var score := maxOnes * 10 + totalOnes * 3 + repeat + nice - lower + palindrome;
    assert 0 <= repeat + nice + palindrome <= 75;
    assert score - (10 * maxOnes + 3 * totalOnes - lower) == repeat + nice + palindrome;
    assert IsLongestOnesRun(address, maxOnes) && totalOnes == multiset(address)['1'];
    assert && score == 10 * maxOnes + 3 * multiset(address)['1'] - LowercaseCount(address)
                       + RepeatBonus(address) + NiceEndingBonus(address) + PalindromeBonus(address)
           && 0 <= score - (10 * maxOnes + 3 * multiset(address)['1'] - LowercaseCount(address)) <= 75;
    score
  }

  /** An address of at most one character is its own palindromic tail, worth
      30; with no ending long enough for the other bonuses, it scores 30 plus
      13 for a '1' and minus 1 for a lowercase letter. */
  lemma ShortAddressScore(s: string)
    requires |s| <= 1
    ensures PalindromeBonus(s) == 30
    ensures CalculateBeautyScore(s) == 30 + 13 * multiset(s)['1'] - LowercaseCount(s)
  {
    ShortEndingBonuses(s);
    ShortLongestRun(s);
    var ones := multiset(s)['1'];
    forall m: nat | IsLongestOnesRun(s, m) ensures m == ones {
      LongestRunIsUnique(s, m, ones);
    }
  }

  /** A string of at most one character is too short for the repeat and
      nice-ending bonuses and reads the same backwards. */
  lemma ShortEndingBonuses(s: string)
    requires |s| <= 1
    ensures RepeatBonus(s) == 0 && NiceEndingBonus(s) == 0 && PalindromeBonus(s) == 30
  {
    assert LastN(s, 6) == s;
    NiceEndingsAreDistinctTriples();
  }

  /** In a string of at most one character the longest run of '1's is its
      number of '1's. */
  lemma ShortLongestRun(s: string)
    requires |s| <= 1
    ensures IsLongestOnesRun(s, multiset(s)['1'])
  {
    if |s| == 1 {
      assert s == [s[0]];
      assert OnesRun(s, 0, if s[0] == '1' then 1 else 0);
    } else {
      assert OnesRun(s, 0, 0);
    }
  }

  /** A string has one longest run of '1's. */
  lemma LongestRunIsUnique(s: string, m: nat, n: nat)
    requires IsLongestOnesRun(s, m) && IsLongestOnesRun(s, n)
    ensures m == n
  {
    var i :| OnesRun(s, i, m);
    var j :| OnesRun(s, j, n);
  }
}

=== FILE: burn.dfy ===
/** create_burn_address (vanity_burn.py): a 34-character address made of a
    vanity prefix, a run of '1' filler and a 4-character suffix found by
    exhaustive search in alphabet order until the checksum matches. */
module BurnSearch {

  import opened Wrappers
  import opened Text
  import opened Radix
  import opened Base58
  import opened Address
  import opened Beauty
  import Miner

  const TargetLength: nat := 34
  const SuffixLength: nat := 4
  /** The longest accepted prefix: 34 - 4 = 30, leaving no filler. */
  const MaxPrefixLength: nat := TargetLength - SuffixLength
  /** `len(ALPHABET) ** 4` suffixes. */
  const SuffixCount: nat := 11316496

  /** The source's `BurnAddress` record. */
  datatype BurnAddress = BurnAddress(address: string, prefix: string, onesCount: nat, beautyScore: int)

  /** The outcome of the prefix checks at the top of create_burn_address, as
      written: `prefix[0]` in the error message raises `IndexError` for the
      empty prefix. */
  datatype PrefixVerdict = FillerLength(n: nat) | Rejected | RaisesIndexError

  function CheckBurnPrefixAsWritten(prefix: string): (v: PrefixVerdict)
    ensures v.RaisesIndexError? <==> prefix == ""
    ensures v.FillerLength? ==> v.n + |prefix| + SuffixLength == TargetLength
  {
    if !StartsWith(prefix, "D") then
      if |prefix| == 0 then RaisesIndexError else Rejected
    else if !IsBase58(prefix) then Rejected
    else
      var fillerLen: int := TargetLength - |prefix| - SuffixLength;
      if fillerLen < 0 then Rejected else FillerLength(fillerLen)
  }

  /** The empty prefix crashes the as-written checks instead of being refused. */
  lemma EmptyPrefixRaises()
    ensures CheckBurnPrefixAsWritten("") == RaisesIndexError
    ensures CheckBurnPrefix("") == None
  {
  }

  /** The prefix checks with the empty prefix refused like any other prefix
      that does not start with 'D': the filler length when the prefix starts
      with 'D', is Base58 and leaves room for the 4-character suffix. */
  function CheckBurnPrefix(prefix: string): (r: Option<nat>)
    ensures r.Some? <==> |prefix| > 0 && prefix[0] == 'D' && IsBase58(prefix) && |prefix| <= MaxPrefixLength
    ensures r.Some? ==> r.value + |prefix| + SuffixLength == TargetLength
    ensures prefix != "" ==> (r.Some? <==> CheckBurnPrefixAsWritten(prefix).FillerLength?)
    ensures r.Some? ==> CheckBurnPrefixAsWritten(prefix) == FillerLength(r.value)
  {
    if |prefix| == 0 || prefix[0] != 'D' then None
    else if !IsBase58(prefix) then None
    else if |prefix| > MaxPrefixLength then None
    else Some(MaxPrefixLength - |prefix|)
  }

  /** The maximum the "Prefix too long" error of create_burn_address reports,
      as written: `target_len - suffix_len - 1`. */
  const ReportedMaxAsWritten: nat := TargetLength - SuffixLength - 1

  /** The as-written message understates the limit: every 'D'-prefixed
      Base58 prefix one character longer than the maximum it reports is
      accepted, with no filler, and "D" followed by 29 '1's is one. */
  lemma ReportedMaxUnderstates(prefix: string)
    requires StartsWith(prefix, "D") && IsBase58(prefix) && |prefix| == ReportedMaxAsWritten + 1
    ensures CheckBurnPrefixAsWritten(prefix) == FillerLength(0)
    ensures CheckBurnPrefixAsWritten("D" + Repeat('1', ReportedMaxAsWritten)) == FillerLength(0)
  {
    var example := "D" + Repeat('1', ReportedMaxAsWritten);
    assert InAlphabet('D') && InAlphabet('1');
    assert forall i :: 0 <= i < |example| ==> example[i] == 'D' || example[i] == '1';
    assert StartsWith(example, "D");
  }

  /** The maximum the message evidently means: the longest prefix accepted. */
  const ReportedMax: nat := MaxPrefixLength

  /** A 'D'-prefixed Base58 prefix is accepted exactly when it is no longer
      than the corrected reported maximum. */
  lemma ReportedMaxIsExact(prefix: string)
    requires |prefix| > 0 && prefix[0] == 'D' && IsBase58(prefix)
    ensures CheckBurnPrefix(prefix).Some? <==> |prefix| <= ReportedMax
    ensures CheckBurnPrefixAsWritten(prefix).FillerLength? <==> |prefix| <= ReportedMax
  {
  }

  /** The burn generator accepts exactly the prefixes the miner accepts that
      leave room for the suffix. */
  lemma BurnPrefixIsMinerPrefix(prefix: string)
    ensures CheckBurnPrefix(prefix).Some? <==> Miner.ValidatePrefix(prefix) && |prefix| <= MaxPrefixLength
  {
    if |prefix| > 0 && prefix[0] == 'D' {
      forall i | 0 <= i < |prefix| {
        DigitOfMember(prefix[i]);
      }
    }
  }

  lemma SuffixDigitsFit(k: nat)
    requires k < SuffixCount
    ensures |ToDigits(k, 58)| <= SuffixLength
  {
    var ds := ToDigits(k, 58);
    assert Pow(58, 4) == SuffixCount;
    if |ds| > SuffixLength {
      FromDigitsLower(ds, 58);
      PowStrictlyIncreasing(58, 4, |ds| - 1);
    }
  }

  /** The `k`-th suffix of `itertools.product(ALPHABET, repeat=4)`: the
      4-digit base-58 numeral of `k`, so enumeration order is numeric order. */
  function SuffixAt(k: nat): (s: string)
    requires k < SuffixCount
    ensures |s| == SuffixLength && IsBase58(s) && ValueOf(s) == k
  {
    var ds := ToDigits(k, 58);
    SuffixDigitsFit(k);
    var padded := Zeros(SuffixLength - |ds|) + ds;
    FromDigitsLeadingZeros(SuffixLength - |ds|, ds, 58);
    SpellIsBase58(padded);
    Spell(padded)
  }

  /** Distinct positions in the enumeration give distinct suffixes. */
  lemma SuffixAtInjective(j: nat, k: nat)
    requires j < SuffixCount && k < SuffixCount && j != k
    ensures SuffixAt(j) != SuffixAt(k)
  {
  }

  /** The `k`-th candidate examined: prefix, then `34 - len(prefix) - 4` '1's,
      then the `k`-th suffix. */
  function Candidate(prefix: string, k: nat): (c: string)
    requires CheckBurnPrefix(prefix).Some? && k < SuffixCount
    ensures |c| == TargetLength && IsBase58(c)
    ensures c[..|prefix|] == prefix
    ensures forall i :: |prefix| <= i < TargetLength - SuffixLength ==> c[i] == '1'
    ensures c[TargetLength - SuffixLength..] == SuffixAt(k)
  {
    prefix + Repeat('1', MaxPrefixLength - |prefix|) + SuffixAt(k)
  }

  /** No candidate before position `k` passes verify_address. */
  predicate NoneVerifyBefore(prefix: string, k: nat, checksum: Checksum)
    requires CheckBurnPrefix(prefix).Some? && k <= SuffixCount
  {
    forall j :: 0 <= j < k ==> !VerifyAddress(Candidate(prefix, j), checksum)
  }

  lemma NoneVerifyBeforeStep(prefix: string, k: nat, checksum: Checksum)
    requires CheckBurnPrefix(prefix).Some? && k < SuffixCount
    requires NoneVerifyBefore(prefix, k, checksum)
    requires !VerifyAddress(Candidate(prefix, k), checksum)
    ensures NoneVerifyBefore(prefix, k + 1, checksum)
  {
  }

  /** The search loop of create_burn_address: the position of the first
      candidate in enumeration order that passes verify_address, if any. */
  method FindSuffix(prefix: string, checksum: Checksum) returns (found: Option<nat>)
    requires CheckBurnPrefix(prefix).Some?
    ensures found.Some? ==> && found.value < SuffixCount
                            && VerifyAddress(Candidate(prefix, found.value), checksum)
                            && NoneVerifyBefore(prefix, found.value, checksum)
    ensures found.None? ==> NoneVerifyBefore(prefix, SuffixCount, checksum)
  {
    var k := 0;
    while k < SuffixCount
      invariant 0 <= k <= SuffixCount
      invariant NoneVerifyBefore(prefix, k, checksum)
    {
      var candidate := Candidate(prefix, k);
      // The loop body decodes, left-pads to 25 bytes and compares the
      // checksum exactly as verify_address does.
      if VerifyAddress(candidate, checksum) {
        return Some(k);
      }
      NoneVerifyBeforeStep(prefix, k, checksum);
      k := k + 1;
    }
    return None;
  }

  /** create_burn_address: None for a rejected prefix; otherwise the first
      candidate in enumeration order that verify_address accepts, with its
      count of '1's and its beauty; None when no suffix works. */
  method CreateBurnAddress(prefix: string, checksum: Checksum) returns (r: Option<BurnAddress>)
    ensures CheckBurnPrefix(prefix).None? ==> r.None?
    ensures r.Some? ==> && r.value.prefix == prefix
                        && VerifyAddress(r.value.address, checksum)
                        && r.value.onesCount == multiset(r.value.address)['1']
                        && r.value.beautyScore == CalculateBeauty(r.value.address)
    ensures r.Some? ==> && CheckBurnPrefix(prefix).Some?
                        && exists k :: && 0 <= k < SuffixCount
                                       && r.value.address == Candidate(prefix, k)
                                       && NoneVerifyBefore(prefix, k, checksum)
    ensures r.None? && CheckBurnPrefix(prefix).Some? ==> NoneVerifyBefore(prefix, SuffixCount, checksum)
  {
    if CheckBurnPrefix(prefix).None? {
      return None;
    }
    var found := FindSuffix(prefix, checksum);
    if found.None? {
      return None;
    }
    var candidate := Candidate(prefix, found.value);
    var score := CalculateBeauty(candidate);
    r := Some(BurnAddress(candidate, prefix, Count(candidate, '1'), score));
  }
}

=== FILE: dead_address.dfy ===
/** calculate_dead_address.py: a byte-string Base58 encoder and the assembly
    of the burn address from a RIPEMD-160 hash. */
module DeadAddress {

  import opened Wrappers
  import opened Text
  import opened Radix
  import opened Base58
  import opened Address

  /** The byte value of a character below 256 (its ASCII code for the alphabet). */
  function AsciiOf(s: string): (b: seq<byte>)
    requires forall i :: 0 <= i < |s| ==> s[i] as int < 256
    ensures |b| == |s| && forall i :: 0 <= i < |s| ==> b[i] == s[i] as int
  {
    seq(|s|, i requires 0 <= i < |s| => if s[i] as int < 256 then s[i] as int else 0)
  }

  /** `bytes.decode('utf-8')` of a byte string that is all ASCII. */
  function DecodeAscii(b: seq<byte>): (s: string)
    requires forall i :: 0 <= i < |b| ==> b[i] < 128
    ensures |s| == |b| && forall i :: 0 <= i < |b| ==> s[i] as int == b[i]
  {
    seq(|b|, i requires 0 <= i < |b| => b[i] as char)
  }

  /** Base58 text is ASCII, and decoding its bytes gives it back. */
  lemma AsciiRoundTrip(s: string)
    requires IsBase58(s)
    ensures forall i :: 0 <= i < |s| ==> s[i] as int < 128
    ensures DecodeAscii(AsciiOf(s)) == s
  {
    assert forall i :: 0 <= i < |s| ==> InAlphabet(s[i]);
  }

  /** `alphabet[r:r+1]` of the byte alphabet `b'123…xyz'`. */
  function AlphabetByte(d: nat): (b: byte)
    requires d < 58
    ensures b == Alphabet[d] as int && b < 128
  {
    AlphabetDigits();
    assert InAlphabet(Alphabet[d]);
    Alphabet[d] as int
  }

  /** The byte spelling of a base-58 numeral. */
  function ByteSpell(ds: seq<nat>): (b: seq<byte>)
    requires AllBelow(ds, 58)
    ensures |b| == |ds| && forall i :: 0 <= i < |ds| ==> b[i] == AlphabetByte(ds[i])
  {
    seq(|ds|, i requires 0 <= i < |ds| => AlphabetByte(ds[i]))
  }

  const OneByte: byte := '1' as int

  /** One `divmod(n, 58)` step peels the last digit off the numeral. */
  lemma ByteSpellStep(n: nat)
    requires n > 0
    ensures ByteSpell(ToDigits(n, 58)) == ByteSpell(ToDigits(n / 58, 58)) + [AlphabetByte(n % 58)]
  {
    var high := ToDigits(n / 58, 58);
    assert ToDigits(n, 58) == high + [n % 58];
    ByteSpellSnoc(high, n % 58);
  }

  lemma ByteSpellSnoc(ds: seq<nat>, d: nat)
    requires AllBelow(ds, 58) && d < 58
    ensures AllBelow(ds + [d], 58)
    ensures ByteSpell(ds + [d]) == ByteSpell(ds) + [AlphabetByte(d)]
  {
    assert AllBelow(ds + [d], 58);
  }

  /** One `n, r = divmod(n, 58); chars.append(alphabet[r:r+1])` step keeps the
      spelling of `n` followed by the reversed output fixed. */
  lemma DivmodStep(n0: nat, n: nat, chars: seq<byte>)
    requires n > 0 && ByteSpell(ToDigits(n, 58)) + Reverse(chars) == ByteSpell(ToDigits(n0, 58))
    ensures ByteSpell(ToDigits(n / 58, 58)) + Reverse(chars + [AlphabetByte(n % 58)]) == ByteSpell(ToDigits(n0, 58))
  {
    var c := AlphabetByte(n % 58);
    ByteSpellStep(n);
    ReverseSnoc(chars, c);
    AppendAssociates(ByteSpell(ToDigits(n / 58, 58)), [c], Reverse(chars));
  }


  /** The `while n > 0: n, r = divmod(n, 58)` loop: the alphabet bytes of
      the base-58 digits of `n`, least significant first. */
  method DivmodDigits(n0: nat) returns (chars: seq<byte>)
    ensures Reverse(chars) == ByteSpell(ToDigits(n0, 58))
  {
    var n := n0;
    chars := [];
    while n > 0
      invariant ByteSpell(ToDigits(n, 58)) + Reverse(chars) == ByteSpell(ToDigits(n0, 58))
      decreases n
    {
      DivmodStep(n0, n, chars);
      chars := chars + [AlphabetByte(n % 58)];
      n := n / 58;
    }
  }

  /** The `for byte in b: if byte == 0: pad += 1 else: break` loop. */
  method LeadingZeroBytes(b: seq<byte>) returns (pad: nat)
    ensures pad == CountLeading(b, 0)
  {
    pad := 0;
    while pad < |b| && b[pad] == 0
      invariant pad <= CountLeading(b, 0)
    {
      pad := pad + 1;
    }
  }

  /** The byte spelling of Base58 text is its '1' bytes followed by the alphabet
      bytes of its numeral. */
  lemma EncodedBytes(b: seq<byte>)
    ensures forall i :: 0 <= i < |Encode(b)| ==> Encode(b)[i] as int < 256
    ensures AsciiOf(Encode(b)) == Repeat(OneByte, CountLeading(b, 0)) + ByteSpell(ToDigits(BytesValue(b), 58))
  {
    var s := Encode(b);
    var pad := CountLeading(b, 0);
    var ds := ToDigits(BytesValue(b), 58);
    assert s == Repeat('1', pad) + Spell(ds);
    AsciiRoundTrip(s);
    var out := Repeat(OneByte, pad) + ByteSpell(ds);
    assert forall i :: 0 <= i < |s| ==> out[i] == s[i] as int by {
      forall i | 0 <= i < |s|
        ensures out[i] == s[i] as int
      {
        if i >= pad {
          AlphabetDigits();
          assert s[i] == Spell(ds)[i - pad] == Alphabet[ds[i - pad]];
        }
      }
    }
  }

  /** base58_encode (calculate_dead_address.py): produces the digits least
      significant first by repeated `divmod(n, 58)`, reverses them and prefixes
      one b'1' per leading zero byte; the result is the byte spelling of
      mine_vanity.py's `base58_encode` on every input. */
  method EncodeBytes(b: seq<byte>) returns (out: seq<byte>)
    ensures forall i :: 0 <= i < |Encode(b)| ==> Encode(b)[i] as int < 256
    ensures out == AsciiOf(Encode(b))
  {
    var n := BytesValue(b);
    var chars := DivmodDigits(n);
    var pad := LeadingZeroBytes(b);
    out := Repeat(OneByte, pad) + Reverse(chars);
    EncodedBytes(b);
  }

  /** calculate_burn_address: None when RIPEMD-160 is unavailable (the hash is
      absent); otherwise the Base58 text of `0x1e ‖ h160 ‖ checksum`, which is
      the address create_address_from_hash builds from the same hash. */
  method CalculateBurnAddress(h160: Option<Hash20>, checksum: Checksum) returns (address: Option<string>)
    ensures h160.None? <==> address.None?
    ensures h160.Some? ==> address.value == CreateAddressFromHash(h160.value, checksum)
    ensures h160.Some? ==> && |address.value| == 34 && address.value[0] == 'D'
                           && Decode(address.value) == Ok(AddressBytes(h160.value, checksum))
  {
    if h160.None? {
      return None;
    }
    var versionByte: seq<byte> := [DogeVersion];
    var payload := versionByte + h160.value;
    var check := checksum(payload);
    var finalBinary := payload + check;
    assert finalBinary == AddressBytes(h160.value, checksum);
    var addressBytes := EncodeBytes(finalBinary);
    AsciiRoundTrip(Encode(finalBinary));
    address := Some(DecodeAscii(addressBytes));
  }
}

=== FILE: feed.dfy ===
/** The transaction feed of script.js: `timeAgo`'s age buckets, new-burn
    detection on a balance increase, and `updateTransactions`' bookkeeping of
    known transaction hashes, new-row marks, the 10-entry cache and the
    celebration trigger. Network access, storage and the DOM are left out;
    the current time is a parameter. */
module Feed {

  import opened Wrappers
  import opened Radix

  /* ---------------------------------------------------------------- timeAgo */

  datatype Unit = Minutes | Hours | Days | Months | Years

  /** An age label: "just now", or a whole number of units ago. */
  datatype Age = JustNow | Ago(count: nat, unit: Unit)

  /** The seconds in one unit: a month is 30 days and a year 365 days. */
  function UnitSeconds(u: Unit): nat
  {
    match u
    case Minutes => 60
    case Hours => 3600
    case Days => 86400
    case Months => 2592000
    case Years => 31536000
  }

  function UnitRank(u: Unit): nat
  {
    match u
    case Minutes => 0
    case Hours => 1
    case Days => 2
    case Months => 3
    case Years => 4
  }

  /** `Math.floor((now - date) / 1000)`: the elapsed time in whole seconds,
      rounded down also when the date lies in the future. */
  function ElapsedSeconds(nowMs: int, dateMs: int): (s: int)
    ensures s * 1000 <= nowMs - dateMs < (s + 1) * 1000
  {
    (nowMs - dateMs) / 1000
  }

  lemma DivBracket(s: nat, u: nat)
    requires u > 0
    ensures (s / u) * u <= s < (s / u + 1) * u
  {
  }

  /** The bucket `timeAgo` puts an elapsed time in: "just now" below a minute
      (negative times included); otherwise the largest unit not exceeding the
      elapsed time, counted in whole units, rounded down. */
  function Bucket(seconds: int): (a: Age)
    ensures a.JustNow? <==> seconds < 60
    ensures a.Ago? ==> && a.count >= 1
                       && a.count * UnitSeconds(a.unit) <= seconds < (a.count + 1) * UnitSeconds(a.unit)
    ensures a.Ago? ==> forall u: Unit :: UnitSeconds(u) <= seconds ==> UnitRank(u) <= UnitRank(a.unit)
  {
    if seconds < 60 then JustNow
    else
      var u := if seconds < 3600 then Minutes
               else if seconds < 86400 then Hours
               else if seconds < 2592000 then Days
               else if seconds < 31536000 then Months
               else Years;
      DivBracket(seconds, UnitSeconds(u));
      Ago(seconds / UnitSeconds(u), u)
  }

  /** Ages in the order of the time they stand for. */
  predicate AgeAtMost(a: Age, b: Age)
  {
    match (a, b)
    case (JustNow, _) => true
    case (Ago(_, _), JustNow) => false
    case (Ago(m, u), Ago(n, v)) => UnitRank(u) < UnitRank(v) || (u == v && m <= n)
  }

  lemma DivMonotone(s: nat, t: nat, u: nat)
    requires u > 0 && s <= t
    ensures s / u <= t / u
  {
    DivBracket(s, u);
    DivBracket(t, u);
    if s / u > t / u {
      MulMonotone(t / u + 1, s / u, u);
    }
  }

  /** A longer elapsed time never gets a younger label. */
  lemma BucketMonotone(s: int, t: int)
    requires s <= t
    ensures AgeAtMost(Bucket(s), Bucket(t))
  {
    var a := Bucket(s);
    var b := Bucket(t);
    if a.Ago? && b.Ago? && a.unit == b.unit {
      DivMonotone(s, t, UnitSeconds(a.unit));
    }
  }

  function UnitSuffix(u: Unit): string
  {
    match u
    case Minutes => "m ago"
    case Hours => "h ago"
    case Days => "d ago"
    case Months => "mo ago"
    case Years => "y ago"
  }

  /** The text of an age label, the count in decimal followed by the unit's
      suffix; it reads back as the age it was made from. */
  function Label(a: Age): (s: string)
    ensures |s| > 0
    ensures ParseLabel(s) == Some(a)
  {
    match a
    case JustNow => "just now"
    case Ago(n, u) =>
      ParseAgo(DecimalString(n), UnitSuffix(u), u);
      DecimalString(n) + UnitSuffix(u)
  }

  /** timeAgo: "just now" below a minute; otherwise a label that reads back
      as the bucket of the elapsed whole seconds. */
  function TimeAgo(nowMs: int, dateMs: int): (s: string)
    ensures nowMs - dateMs < 60000 <==> s == "just now"
    ensures ParseLabel(s) == Some(Bucket(ElapsedSeconds(nowMs, dateMs)))
  {
    var a := Bucket(ElapsedSeconds(nowMs, dateMs));
    assert a.Ago? ==> IsDecimalDigit(Label(a)[0]);
    Label(a)
  }

  /** The length of the run of decimal digits at the start of `s`. */
  function LeadingDigits(s: string): (k: nat)
    ensures k <= |s| && forall i :: 0 <= i < k ==> IsDecimalDigit(s[i])
  {
    if |s| == 0 || !IsDecimalDigit(s[0]) then 0 else 1 + LeadingDigits(s[1..])
  }

  /** Digits followed by text that starts with a non-digit: the run is exactly the digits. */
  lemma {:induction false} LeadingDigitsOf(d: string, t: string)
    requires forall i :: 0 <= i < |d| ==> IsDecimalDigit(d[i])
    requires |t| > 0 && !IsDecimalDigit(t[0])
    ensures LeadingDigits(d + t) == |d|
    decreases |d|
  {
    if |d| > 0 {
      assert (d + t)[1..] == d[1..] + t;
      LeadingDigitsOf(d[1..], t);
    } else {
      assert (d + t)[0] == t[0];
    }
  }

  /** The unit a label's text ends with. */
  function SuffixUnit(t: string): (u: Option<Unit>)
    ensures u.Some? ==> UnitSuffix(u.value) == t
  {
    if t == "m ago" then Some(Minutes)
    else if t == "h ago" then Some(Hours)
    else if t == "d ago" then Some(Days)
    else if t == "mo ago" then Some(Months)
    else if t == "y ago" then Some(Years)
    else None
  }

  /** Reads a label back: "just now", or a run of digits and a unit suffix. */
  function ParseLabel(s: string): (a: Option<Age>)
  {
    if s == "just now" then Some(JustNow)
    else
      var k := LeadingDigits(s);
      if k == 0 then None
      else
        match SuffixUnit(s[k..])
        case None => None
        case Some(u) => Some(Ago(DecimalValue(s[..k]), u))
  }

  lemma SuffixRoundTrip(u: Unit)
    ensures SuffixUnit(UnitSuffix(u)) == Some(u)
  {
  }

  /** A label made of digits and a suffix reads back as its count and unit. */
  lemma ParseAgo(d: string, t: string, u: Unit)
    requires |d| > 0 && forall i :: 0 <= i < |d| ==> IsDecimalDigit(d[i])
    requires t == UnitSuffix(u)
    ensures ParseLabel(d + t) == Some(Ago(DecimalValue(d), u))
  {
    var s := d + t;
    assert s[0] == d[0];
    assert s != "just now" by {
      assert "just now"[0] == 'j';
    }
    LeadingDigitsOf(d, t);
    assert s[..|d|] == d && s[|d|..] == t;
    SuffixRoundTrip(u);
  }

  /** Different ages are labelled differently: each label reads back as its
      own age (the contract of Label). */
  lemma LabelInjective(a: Age, b: Age)
    requires Label(a) == Label(b)
    ensures a == b
  {
  }

  /* ---------------------------------------------------------------- state */

  /** A balance reading as a JavaScript number: a finite value, or NaN, which
      `parseFloat` yields for a missing or non-numeric field and a division
      yields for an undefined one. Every comparison with NaN is false. */
  datatype JsNumber = Num(value: real) | NaN

  /** `a > b` on JavaScript numbers. */
  predicate Above(a: JsNumber, b: JsNumber)
  {
    a.Num? && b.Num? && a.value > b.value
  }

  /** The feed's state: the last balance seen, the transaction hashes already
      shown, and whether no transaction list has been rendered yet. */
  datatype FeedState = FeedState(lastKnownBalance: JsNumber, known: set<string>, firstLoad: bool)

  const Initial: FeedState := FeedState(Num(0.0), {}, true)

  /* ---------------------------------------------------------------- updateBalance */

  /** The result of updateBalance: the new state, and the amount burned when a
      new burn was detected. */
  datatype BalanceUpdate = BalanceUpdate(state: FeedState, burned: real)

  /** updateBalance: a burn (celebration) is detected exactly when a positive
      balance was seen before and the new reading is a higher number; the
      reading is kept whatever it is, NaN included. */
  function UpdateBalance(st: FeedState, balance: JsNumber): (r: BalanceUpdate)
    ensures r.burned > 0.0 <==> && st.lastKnownBalance.Num? && st.lastKnownBalance.value > 0.0
                                && balance.Num? && balance.value > st.lastKnownBalance.value
    ensures r.burned > 0.0 ==> r.burned == balance.value - st.lastKnownBalance.value
    ensures r.burned >= 0.0
    ensures r.state == st.(lastKnownBalance := balance)
  {
    if Above(st.lastKnownBalance, Num(0.0)) && Above(balance, st.lastKnownBalance) then
      BalanceUpdate(st.(lastKnownBalance := balance), balance.value - st.lastKnownBalance.value)
    else BalanceUpdate(st.(lastKnownBalance := balance), 0.0)
  }

  /** The same reading twice detects nothing the second time. */
  lemma RepeatedBalanceIsSilent(st: FeedState, balance: JsNumber)
    ensures UpdateBalance(UpdateBalance(st, balance).state, balance).burned == 0.0
  {
  }

  /** A NaN reading is stored as the last balance, so the reading after it
      detects no burn, however much higher than the balance before the NaN. */
  lemma NaNSilencesNextReading(st: FeedState, balance: JsNumber)
    ensures UpdateBalance(st, NaN).state.lastKnownBalance == NaN
    ensures UpdateBalance(UpdateBalance(st, NaN).state, balance).burned == 0.0
  {
  }

  /** Successive readings, and the total amount of the burns they detect. */
  function Replay(st: FeedState, readings: seq<JsNumber>): (r: BalanceUpdate)
    decreases |readings|
  {
    if |readings| == 0 then BalanceUpdate(st, 0.0)
    else
      var first := UpdateBalance(st, readings[0]);
      var rest := Replay(first.state, readings[1..]);
      BalanceUpdate(rest.state, first.burned + rest.burned)
  }

  /** Readings that are all numbers, in non-decreasing order. */
  predicate NonDecreasing(xs: seq<JsNumber>)
  {
    && (forall i :: 0 <= i < |xs| ==> xs[i].Num?)
    && (forall i, j :: 0 <= i <= j < |xs| ==> xs[i].value <= xs[j].value)
  }

  /** Once a positive balance is known, a non-decreasing run of numeric
      readings reports burns adding up exactly to the growth of the balance. */
  lemma {:induction false} BurnsAddUpToGrowth(st: FeedState, readings: seq<JsNumber>)
    requires st.lastKnownBalance.Num? && st.lastKnownBalance.value > 0.0 && |readings| > 0
    requires NonDecreasing(readings) && st.lastKnownBalance.value <= readings[0].value
    ensures Replay(st, readings).burned == readings[|readings| - 1].value - st.lastKnownBalance.value
    ensures Replay(st, readings).state.lastKnownBalance == readings[|readings| - 1]
    decreases |readings|
  {
    var first := UpdateBalance(st, readings[0]);
    if |readings| > 1 {
      var tail := readings[1..];
      assert tail[|tail| - 1] == readings[|readings| - 1];
      assert readings[0].value <= tail[0].value;
      assert forall i :: 0 <= i < |tail| ==> tail[i] == readings[i + 1];
      BurnsAddUpToGrowth(first.state, tail);
    }
  }

  /* ---------------------------------------------------------------- updateTransactions */

  /** A transaction reference from the explorer: `tx_input_n` is -1 for a
      payment received by the address. Times are in milliseconds. */
  datatype TxRef = TxRef(hash: string, inputN: int, value: int, confirmedMs: int)

  predicate IsReceived(tx: TxRef)
  {
    tx.inputN == -1
  }

  /** `txrefs.filter(tx => tx.tx_input_n === -1)`. */
  function Received(txrefs: seq<TxRef>): (r: seq<TxRef>)
    ensures |r| <= |txrefs|
    ensures forall j :: 0 <= j < |r| ==> IsReceived(r[j]) && r[j] in txrefs
    ensures forall i :: 0 <= i < |txrefs| && IsReceived(txrefs[i]) ==> txrefs[i] in r
  {
    if |txrefs| == 0 then []
    else
      var rest := Received(txrefs[1..]);
      assert forall i :: 1 <= i < |txrefs| ==> txrefs[i] == txrefs[1..][i - 1];
      if IsReceived(txrefs[0]) then [txrefs[0]] + rest else rest
  }

  function HashSet(txs: seq<TxRef>): (hs: set<string>)
    ensures forall i :: 0 <= i < |txs| ==> txs[i].hash in hs
    ensures forall h :: h in hs ==> exists i :: 0 <= i < |txs| && txs[i].hash == h
  {
    set i | 0 <= i < |txs| :: txs[i].hash
  }

  /** `txs[i]` is the first transaction of the batch with its hash. */
  predicate FirstWithHash(txs: seq<TxRef>, i: nat)
    requires i < |txs|
  {
    forall j :: 0 <= j < i ==> txs[j].hash != txs[i].hash
  }

  /** One rendered row: its hash, whether it is marked `new-tx`, and its age. */
  datatype Row = Row(hash: string, isNew: bool, age: Age)

  datatype TxUpdate =
    | Unchanged
    | Rendered(rows: seq<Row>, cache: seq<TxRef>, celebrate: bool)

  const CacheSize: nat := 10

  /** The first pass: is some incoming hash not yet known? */
  method AnyUnknown(received: seq<TxRef>, known: set<string>) returns (found: bool)
    ensures found <==> exists i :: 0 <= i < |received| && received[i].hash !in known
  {
    found := false;
    var i := 0;
    while i < |received|
      invariant 0 <= i <= |received|
      invariant forall j :: 0 <= j < i ==> received[j].hash in known
    {
      if received[i].hash !in known {
        found := true;
        return;
      }
      i := i + 1;
    }
  }

  /** The row `received.forEach` renders for the `i`-th payment. */
  function RowAt(received: seq<TxRef>, known0: set<string>, firstLoad: bool, nowMs: int, i: nat): Row
    requires i < |received|
  {
    Row(received[i].hash,
        !firstLoad && received[i].hash !in known0 && FirstWithHash(received, i),
        Bucket(ElapsedSeconds(nowMs, received[i].confirmedMs)))
  }

  lemma HashSetSnoc(txs: seq<TxRef>, tx: TxRef)
    ensures HashSet(txs + [tx]) == HashSet(txs) + {tx.hash}
  {
    var l := HashSet(txs + [tx]);
    var r := HashSet(txs) + {tx.hash};
    forall h | h in l
      ensures h in r
    {
      var i :| 0 <= i < |txs + [tx]| && (txs + [tx])[i].hash == h;
      if i < |txs| {
        assert txs[i].hash == h;
      }
    }
    forall h | h in r
      ensures h in l
    {
      if h in HashSet(txs) {
        var i :| 0 <= i < |txs| && txs[i].hash == h;
        assert (txs + [tx])[i].hash == h;
      } else {
        assert (txs + [tx])[|txs|].hash == h;
      }
    }
  }

  /** The second pass (`received.forEach`): each row is new when the page has
      loaded before and its hash is unknown at that moment; the hash is then
      known. */
  method MarkRows(received: seq<TxRef>, known0: set<string>, firstLoad: bool, nowMs: int)
    returns (rows: seq<Row>, known: set<string>)
    ensures known == known0 + HashSet(received)
    ensures |rows| == |received|
    ensures forall i :: 0 <= i < |rows| ==> rows[i].hash == received[i].hash
    ensures forall i :: 0 <= i < |rows| ==> rows[i].age == Bucket(ElapsedSeconds(nowMs, received[i].confirmedMs))
    ensures forall i :: 0 <= i < |rows| ==>
              (rows[i].isNew <==> !firstLoad && received[i].hash !in known0 && FirstWithHash(received, i))
  {
    rows := [];
    known := known0;
    var i := 0;
    while i < |received|
      invariant 0 <= i <= |received|
      invariant known == known0 + HashSet(received[..i])
      invariant |rows| == i
      invariant forall k :: 0 <= k < i ==> rows[k] == RowAt(received, known0, firstLoad, nowMs, k)
    {
      var tx := received[i];
      SeenBefore(received, known0, i);
      var isNew := tx.hash !in known && !firstLoad;
      var row := Row(tx.hash, isNew, Bucket(ElapsedSeconds(nowMs, tx.confirmedMs)));
      assert row == RowAt(received, known0, firstLoad, nowMs, i);
      HashSetSnoc(received[..i], tx);
      assert received[..i + 1] == received[..i] + [tx];
      known := known + {tx.hash};
      rows := rows + [row];
      i := i + 1;
    }
    assert received[..i] == received;
  }

  /** A hash is in the set built from the first `i` rows exactly when it was
      known before or one of those rows carries it. */
  lemma SeenBefore(received: seq<TxRef>, known0: set<string>, i: nat)
    requires i < |received|
    ensures received[i].hash !in known0 + HashSet(received[..i])
            <==> received[i].hash !in known0 && FirstWithHash(received, i)
  {
    var h := received[i].hash;
    if h in HashSet(received[..i]) {
      var j :| 0 <= j < i && received[..i][j].hash == h;
      assert received[j].hash == h;
    }
    if !FirstWithHash(received, i) {
      var j :| 0 <= j < i && received[j].hash == h;
      assert received[..i][j].hash == h;
    }
  }

  /** Every hash of a batch has a first occurrence. */
  lemma FirstOccurrence(txs: seq<TxRef>, i: nat) returns (j: nat)
    requires i < |txs|
    ensures j <= i && txs[j].hash == txs[i].hash && FirstWithHash(txs, j)
  {
    j := 0;
    while txs[j].hash != txs[i].hash
      invariant j <= i
      invariant forall k :: 0 <= k < j ==> txs[k].hash != txs[i].hash
      decreases i - j
    {
      j := j + 1;
    }
  }

  /** updateTransactions. With no received payment it returns before touching
      anything. Otherwise it renders one row per received payment, caches the
      first ten, records every hash as known, clears the first-load flag, and
      celebrates exactly when the page had loaded before and some hash was new. */
  method UpdateTransactions(st: FeedState, txrefs: seq<TxRef>, nowMs: int)
    returns (next: FeedState, u: TxUpdate)
    ensures u.Unchanged? <==> |Received(txrefs)| == 0
    ensures u.Unchanged? ==> next == st
    ensures u.Rendered? ==> && next.known == st.known + HashSet(Received(txrefs))
                            && !next.firstLoad
                            && next.lastKnownBalance == st.lastKnownBalance
    ensures u.Rendered? ==> |u.rows| == |Received(txrefs)|
    ensures u.Rendered? ==> forall i :: 0 <= i < |u.rows| ==>
              && u.rows[i].hash == Received(txrefs)[i].hash
              && u.rows[i].age == Bucket(ElapsedSeconds(nowMs, Received(txrefs)[i].confirmedMs))
              && (u.rows[i].isNew <==> !st.firstLoad && u.rows[i].hash !in st.known
                                       && FirstWithHash(Received(txrefs), i))
    ensures u.Rendered? ==> |u.cache| <= CacheSize && |u.cache| <= |Received(txrefs)| && u.cache == Received(txrefs)[..|u.cache|]
    ensures u.Rendered? ==> (|u.cache| < CacheSize <==> |Received(txrefs)| < CacheSize)
    ensures u.Rendered? ==> (u.celebrate <==> !st.firstLoad && exists h :: h in HashSet(Received(txrefs)) && h !in st.known)
  {
    var received := Received(txrefs);
    if |received| == 0 {
      return st, Unchanged;
    }
    var newTxFound := false;
    if !st.firstLoad {
      newTxFound := AnyUnknown(received, st.known);
    }
    var rows, known := MarkRows(received, st.known, st.firstLoad, nowMs);
    var cache := if |received| < CacheSize then received else received[..CacheSize];
    var celebrate := newTxFound && !st.firstLoad;
    if celebrate {
      var i :| 0 <= i < |received| && received[i].hash !in st.known;
      assert received[i].hash in HashSet(received);
    }
    next := st.(known := known, firstLoad := false);
    u := Rendered(rows, cache, celebrate);
  }

  /** The celebration fires exactly when some rendered row is marked new, and
      a hash repeated within a batch is marked new at most once. */
  lemma CelebrationMatchesNewRows(st: FeedState, txrefs: seq<TxRef>, rows: seq<Row>)
    requires |rows| == |Received(txrefs)|
    requires forall i :: 0 <= i < |rows| ==>
               && rows[i].hash == Received(txrefs)[i].hash
               && (rows[i].isNew <==> !st.firstLoad && rows[i].hash !in st.known
                                      && FirstWithHash(Received(txrefs), i))
    ensures (exists i :: 0 <= i < |rows| && rows[i].isNew)
            <==> !st.firstLoad && exists h :: h in HashSet(Received(txrefs)) && h !in st.known
    ensures forall i, j :: 0 <= i < j < |rows| && rows[i].hash == rows[j].hash ==> !rows[j].isNew
  {
    var received := Received(txrefs);
    forall i, j | 0 <= i < j < |rows| && rows[i].hash == rows[j].hash
      ensures !rows[j].isNew
    {
      assert received[i].hash == received[j].hash;
    }
    if !st.firstLoad && exists h :: h in HashSet(received) && h !in st.known {
      var h :| h in HashSet(received) && h !in st.known;
      var i :| 0 <= i < |received| && received[i].hash == h;
      var j := FirstOccurrence(received, i);
      assert rows[j].isNew;
    }
    if exists i :: 0 <= i < |rows| && rows[i].isNew {
      var i :| 0 <= i < |rows| && rows[i].isNew;
      assert received[i].hash in HashSet(received);
    }
  }
}

=== FILE: miner.dfy ===
/** The pattern matching, difficulty estimate, prefix validation and search
    loop of the vanity miner (mine_vanity.py). */
module Miner {

  import opened Wrappers
  import opened Text
  import opened Radix
  import opened Base58
  import opened Address
  import opened Beauty

  /** Python truthiness of an optional string argument: present and non-empty. */
  predicate Given(o: Option<string>)
  {
    o.Some? && |o.value| > 0
  }

  /** The mining constraints: optional prefix, suffix and substring, and the
      minimum number of '1's (any integer; zero or less means no constraint). */
  datatype Pattern = Pattern(prefix: Option<string>, suffix: Option<string>, contains: Option<string>, minOnes: int)

  predicate Unconstrained(p: Pattern)
  {
    !Given(p.prefix) && !Given(p.suffix) && !Given(p.contains) && p.minOnes <= 0
  }

  /** `sep.join(parts)`. */
  function Join(parts: seq<string>, sep: string): (r: string)
    ensures |parts| > 0 ==> StartsWith(r, parts[0]) && EndsWith(r, parts[|parts| - 1])
    ensures |parts| == 1 ==> r == parts[0]
    decreases |parts|
  {
    if |parts| == 0 then ""
    else if |parts| == 1 then parts[0]
    else
      var init := Join(parts[..|parts| - 1], sep);
      var r := init + sep + parts[|parts| - 1];
      assert r[..|init|] == init;
      r
  }

  /** Labels that cannot spell "beauty" once joined: each is non-empty and
      starts with something other than 'b'. */
  predicate NotBeautyLabels(labels: seq<string>)
  {
    forall i :: 0 <= i < |labels| ==> |labels[i]| > 0 && labels[i][0] != 'b'
  }

  /** A joined list of labels that all start with something other than 'b' is not "beauty". */
  lemma JoinIsNotBeauty(parts: seq<string>)
    requires |parts| > 0 && NotBeautyLabels(parts)
    ensures Join(parts, ", ") != "beauty"
  {
    var r := Join(parts, ", ");
    assert r[..|parts[0]|] == parts[0];
    assert r[0] == parts[0][0];
  }

  /** The label list for one constraint: `tag ‖ value` when it is given, none otherwise. */
  function OptionalLabel(given: bool, tag: string, value: string): (ls: seq<string>)
    requires |tag| > 0 && tag[0] != 'b'
    ensures NotBeautyLabels(ls) && (|ls| == 0 <==> !given)
  {
    if given then [tag + value] else []
  }

  lemma NotBeautyLabelsAppend(a: seq<string>, b: seq<string>)
    requires NotBeautyLabels(a) && NotBeautyLabels(b)
    ensures NotBeautyLabels(a + b)
  {
    forall i | 0 <= i < |a + b|
      ensures |(a + b)[i]| > 0 && (a + b)[i][0] != 'b'
    {
      if i >= |a| {
        assert (a + b)[i] == b[i - |a|];
      }
    }
  }

  /** The labels check_pattern_match collects, in order, for the constraints given. */
  function MatchedLabels(address: string, p: Pattern): (labels: seq<string>)
    ensures NotBeautyLabels(labels)
    ensures |labels| == 0 <==> Unconstrained(p)
  {
    var prefix := OptionalLabel(Given(p.prefix), "prefix:", if Given(p.prefix) then p.prefix.value else "");
    var suffix := OptionalLabel(Given(p.suffix), "suffix:", if Given(p.suffix) then p.suffix.value else "");
    var contains := OptionalLabel(Given(p.contains), "contains:", if Given(p.contains) then p.contains.value else "");
    var ones := OptionalLabel(p.minOnes > 0, "ones:", DecimalString(Count(address, '1')));
    NotBeautyLabelsAppend(prefix, suffix);
    NotBeautyLabelsAppend(prefix + suffix, contains);
    NotBeautyLabelsAppend(prefix + suffix + contains, ones);
    prefix + suffix + contains + ones
  }

  /** check_pattern_match: whether the address meets every given constraint,
      and the description of what matched ("beauty" when nothing was asked). */
  function CheckPatternMatch(address: string, p: Pattern): (r: (bool, string))
    ensures r.0 <==> && (Given(p.prefix) ==> StartsWith(address, p.prefix.value))
                     && (Given(p.suffix) ==> EndsWith(address, p.suffix.value))
                     && (Given(p.contains) ==> Contains(address, p.contains.value))
                     && multiset(address)['1'] >= p.minOnes
    ensures !r.0 ==> r.1 == ""
    ensures r.0 ==> (r.1 == "beauty" <==> Unconstrained(p))
    ensures r.0 && Given(p.prefix) ==> StartsWith(r.1, "prefix:" + p.prefix.value)
    ensures r.0 && p.minOnes > 0 ==> EndsWith(r.1, "ones:" + DecimalString(multiset(address)['1']))
  {
    if Given(p.prefix) && !StartsWith(address, p.prefix.value) then (false, "")
    else if Given(p.suffix) && !EndsWith(address, p.suffix.value) then (false, "")
    else if Given(p.contains) && !Contains(address, p.contains.value) then (false, "")
    else if Count(address, '1') < p.minOnes then (false, "")
    else
      var labels := MatchedLabels(address, p);
      if |labels| == 0 then (true, "beauty")
      else
        JoinIsNotBeauty(labels);
        (true, Join(labels, ", "))
  }

  /** validate_prefix: the prefix starts with 'D' and uses only Base58 characters. */
  function ValidatePrefix(prefix: string): (ok: bool)
    ensures ok <==> |prefix| > 0 && prefix[0] == 'D' && forall i :: 0 <= i < |prefix| ==> prefix[i] in Alphabet
  {
    if !StartsWith(prefix, "D") then false
    else
      assert IsBase58(prefix) <==> forall i :: 0 <= i < |prefix| ==> prefix[i] in Alphabet by {
        forall i | 0 <= i < |prefix| {
          DigitOfMember(prefix[i]);
        }
      }
      IsBase58(prefix)
  }

  /** Every prefix of a generated address is a valid prefix. */
  lemma GeneratedAddressPrefixesValid(hash: Hash20, checksum: Checksum, n: nat)
    requires 1 <= n <= 34
    ensures ValidatePrefix(CreateAddressFromHash(hash, checksum)[..n])
  {
    var a := CreateAddressFromHash(hash, checksum);
    forall i | 0 <= i < n
      ensures a[..n][i] in Alphabet
    {
      DigitOfMember(a[i]);
    }
  }

  // ---- estimate_difficulty ----

  /** Assumed mining rate, addresses per second. */
  const MiningRate: nat := 500000
  const Minute: nat := 60
  const Hour: nat := 3600
  const Day: nat := 86400

  /** The band of the time estimate, carrying the quantity the message
      formats to one decimal place. */
  datatype Eta = Instant | Seconds(s: real) | Minutes(m: real) | Hours(h: real)
               | Days(d: real) | Years(y: real) | HeatDeath

  function EtaRank(e: Eta): nat
  {
    match e
    case Instant => 0
    case Seconds(_) => 1
    case Minutes(_) => 2
    case Hours(_) => 3
    case Days(_) => 4
    case Years(_) => 5
    case HeatDeath => 6
  }

  /** The band for an expected duration in seconds: the if-chain's
      thresholds of 1 second, a minute, an hour, a day, 365 days and
      365,000 days. */
  function EtaOf(seconds: real): (e: Eta)
    ensures e.Instant? <==> seconds < 1.0
    ensures e.Seconds? <==> 1.0 <= seconds < Minute as real
    ensures e.Minutes? <==> Minute as real <= seconds < Hour as real
    ensures e.Hours? <==> Hour as real <= seconds < Day as real
    ensures e.Days? <==> Day as real <= seconds < (Day * 365) as real
    ensures e.Years? <==> (Day * 365) as real <= seconds < (Day * 365 * 1000) as real
    ensures e.HeatDeath? <==> seconds >= (Day * 365 * 1000) as real
    ensures e.Seconds? ==> e.s == seconds
    ensures e.Minutes? ==> e.m * Minute as real == seconds
    ensures e.Hours? ==> e.h * Hour as real == seconds
    ensures e.Days? ==> e.d * Day as real == seconds
    ensures e.Years? ==> e.y * (Day * 365) as real == seconds
  {
    if seconds < 1.0 then Instant
    else if seconds < Minute as real then Seconds(seconds)
    else if seconds < Hour as real then Minutes(seconds / Minute as real)
    else if seconds < Day as real then Hours(seconds / Hour as real)
    else if seconds < (Day * 365) as real then Days(seconds / Day as real)
    else if seconds < (Day * 365 * 1000) as real then Years(seconds / Day as real / 365.0)
    else HeatDeath
  }

  /** A longer expected duration never lands in an earlier band. */
  lemma EtaMonotone(a: real, b: real)
    requires a <= b
    ensures EtaRank(EtaOf(a)) <= EtaRank(EtaOf(b))
  {
  }

  /** `expected_attempts / rate` is Python's true division of two integers:
      the exact quotient rounded to the nearest double. It raises
      OverflowError once that rounding passes the largest double,
      (2^53 - 1) * 2^971. That happens exactly from the quotient
      2^1024 - 2^970 on: the point halfway to 2^1024, which round-half-even
      sends upwards. */
  const OverflowQuotient: int := Pow(2, 1024) - Pow(2, 970)

  /** The outcome of estimate_difficulty: the expected attempts with the
      time band, or the OverflowError the division raises. */
  datatype Difficulty = Estimate(attempts: nat, eta: Eta) | FloatOverflow

  /** estimate_difficulty: the expected number of attempts, 58 to the number
      of prefix characters after the fixed 'D', and the time band at
      500,000 addresses per second; OverflowError when the quotient is too
      large for a double. */
  function EstimateDifficulty(prefix: string): (r: Difficulty)
    ensures |prefix| <= 1 ==> r == Estimate(1, Instant)
    ensures |prefix| > 1 ==> (r.FloatOverflow? <==> Pow(58, |prefix| - 1) >= MiningRate * OverflowQuotient)
    ensures |prefix| > 1 && r.Estimate? ==> && r.attempts == Pow(58, |prefix| - 1)
                                            && r.eta == EtaOf(r.attempts as real / MiningRate as real)
  {
    var prefixLen := |prefix| - 1;
    if prefixLen <= 0 then Estimate(1, Instant)
    else
      var expected := Pow(58, prefixLen);
      if expected >= MiningRate * OverflowQuotient then FloatOverflow
      else Estimate(expected, EtaOf(expected as real / MiningRate as real))
  }

  /** 2^1024, and the lower powers the overflow bracket needs. */
  lemma PowersOfTwo()
    ensures Pow(2, 32) == 4294967296
    ensures Pow(2, 1024) == 179769313486231590772930519078902473361797697894230657273430081157732675805500963132708477322407536021120113879871393357658789768814416622492847430639474124377767893424865485276302219601246094119453082952085005768838150682342462881473913110540827237163350510684586298239947245938479716304835356329624224137216
  {
    assert Pow(2, 8) == 256;
    PowAdd(2, 8, 8);
    assert Pow(2, 16) == 65536;
    PowAdd(2, 16, 16);
    assert Pow(2, 32) == 4294967296;
    PowAdd(2, 32, 32);
    assert Pow(2, 64) == 18446744073709551616;
    PowAdd(2, 64, 64);
    assert Pow(2, 128) == 340282366920938463463374607431768211456;
    PowAdd(2, 128, 128);
    assert Pow(2, 256) == 115792089237316195423570985008687907853269984665640564039457584007913129639936;
    PowAdd(2, 256, 256);
    assert Pow(2, 512) == 13407807929942597099574024998205846127479365820592393377723561443721764030073546976801874298166903427690031858186486050853753882811946569946433649006084096;
    PowAdd(2, 512, 512);
  }

  /** 58^178 lies below 499999 * 2^1024 and 58^179 at or above 500000 * 2^1024. */
  lemma PowersOf58()
    ensures Pow(58, 178) < 499999 * Pow(2, 1024) && 500000 * Pow(2, 1024) <= Pow(58, 179)
  {
    assert Pow(58, 8) == 128063081718016;
    PowAdd(58, 8, 8);
    assert Pow(58, 16) == 16400152899115243850138976256;
    PowAdd(58, 16, 16);
    assert Pow(58, 32) == 268965015114358137726910587140455987105619365599731777536;
    PowAdd(58, 32, 32);
    assert Pow(58, 64) == 72342179355466901471258927612150153907721848234316445933056526044582001260898145151856420451025374266490194231296;
    PowAdd(58, 64, 64);
    assert Pow(58, 128) == 5233390913898541555975071434910120373573594021011138033959093582755111930424545098697786169014061787728292603660381929288691776868252278215011383277255011659059810710192107126317211824196646206080152662865430841867876345839616;
    PowAdd(58, 128, 32);
    assert Pow(58, 160) == 1407599066256065776991330309432578825287197082316598068790221303265260224481125834516679591169203723992431157989962149280479312789822796240577981438022776895768335678753459928818952109933352370148699260595111497970794568678861862867087322364942183523477700486991045111681182047666176;
    PowAdd(58, 160, 16);
    assert Pow(58, 176) == 23084839907251327364706430226278360947036527467257732690725973785181750188111128191392832695336022710004834447486536488990970519872086700401168812349869653266277975547766981845309568550867832172150338476352473195889085489564989461864376682764652356437933108147576766191203458390144404057516710183656658678317056;
    PowAdd(58, 176, 2);
    PowAdd(58, 178, 1);
    PowersOfTwo();
  }

  /** The overflow threshold on the attempts lies between 499999 * 2^1024 and 500000 * 2^1024. */
  lemma OverflowAttemptsBounds()
    ensures 499999 * Pow(2, 1024) <= MiningRate * OverflowQuotient <= 500000 * Pow(2, 1024)
  {
    TwoToThe54();
    PowAdd(2, 970, 54);
    ShavedProduct(Pow(2, 970), Pow(2, 54), Pow(2, 1024));
  }

  lemma TwoToThe54()
    ensures Pow(2, 54) >= 500000
  {
    PowAdd(2, 32, 22);
    PowersOfTwo();
    MulMonotone(1, Pow(2, 22), Pow(2, 32));
  }

  /** Taking one `low` off `top == low * high` costs at most one part in `high`. */
  lemma ShavedProduct(low: nat, high: nat, top: nat)
    requires high >= 500000 && top == low * high
    ensures 499999 * top <= 500000 * (top - low) <= 500000 * top
  {
    MulMonotone(500000, high, low);
  }

  /** The largest number of characters after 'D' whose expected attempts
      still divide to a double. */
  const LastFittingExponent: nat := 178

  /** 58^178 / 500000 is still a double; 58^179 / 500000 is not. */
  lemma OverflowBracket()
    ensures Pow(58, LastFittingExponent) < MiningRate * OverflowQuotient <= Pow(58, LastFittingExponent + 1)
  {
    PowersOf58();
    OverflowAttemptsBounds();
  }

  /** Once `t` lies between two consecutive powers, the powers reaching `t`
      are exactly those with a larger exponent. */
  lemma CrossingExponent(b: nat, j: nat, k: nat, t: int)
    requires b >= 2 && Pow(b, j) < t <= Pow(b, j + 1)
    ensures Pow(b, k) >= t <==> k > j
  {
    if k > j + 1 {
      PowStrictlyIncreasing(b, j + 1, k);
    } else if k < j {
      PowStrictlyIncreasing(b, k, j);
    }
  }

  /** The estimate raises OverflowError exactly for prefixes of 180 or more
      characters, which validate_prefix does not refuse. */
  lemma OverflowsFrom180(prefix: string)
    ensures EstimateDifficulty(prefix).FloatOverflow? <==> |prefix| >= 180
  {
    if |prefix| > 1 {
      OverflowBracket();
      CrossingExponent(58, LastFittingExponent, |prefix| - 1, MiningRate * OverflowQuotient);
    }
  }

  /** Each character added after the first multiplies the expected attempts
      by 58 and never moves the estimate to an earlier band; once the
      division overflows, it keeps overflowing. */
  lemma {:induction false} DifficultyGrows(prefix: string, c: char)
    requires |prefix| >= 1
    ensures EstimateDifficulty(prefix).FloatOverflow? ==> EstimateDifficulty(prefix + [c]).FloatOverflow?
    ensures EstimateDifficulty(prefix).Estimate? && EstimateDifficulty(prefix + [c]).Estimate? ==>
              && EstimateDifficulty(prefix + [c]).attempts == 58 * EstimateDifficulty(prefix).attempts
              && EtaRank(EstimateDifficulty(prefix).eta) <= EtaRank(EstimateDifficulty(prefix + [c]).eta)
  {
    var k := |prefix| - 1;
    var longer := prefix + [c];
    assert |longer| - 1 == k + 1;
    var small := Pow(58, k);
    var large := Pow(58, k + 1);
    assert large == 58 * small;
    if k > 0 {
      EtaMonotone(small as real / MiningRate as real, large as real / MiningRate as real);
    }
  }

  // ---- mine_worker ----

  /** The source's `MiningResult`, without the elapsed time. */
  datatype MiningResult = MiningResult(address: string, beautyScore: int, onesCount: nat,
                                       patternMatched: string, attempts: nat)

  /** What one generated address offers the search: its beauty score when it
      matches the pattern and reaches the minimum beauty. */
  function Offer(address: string, p: Pattern, minBeauty: int): (o: Option<int>)
    ensures o.Some? <==> CheckPatternMatch(address, p).0 && CalculateBeautyScore(address) >= minBeauty
    ensures o.Some? ==> o.value == CalculateBeautyScore(address)
  {
    if CheckPatternMatch(address, p).0 then
      var score := CalculateBeautyScore(address);
      if score >= minBeauty then Some(score) else None
    else None
  }

  /** `[f(x) for x in xs]`. */
  function MapSeq<X, Y>(xs: seq<X>, f: X -> Y): (ys: seq<Y>)
    ensures |ys| == |xs| && forall i :: 0 <= i < |xs| ==> ys[i] == f(xs[i])
  {
    seq(|xs|, i requires 0 <= i < |xs| => f(xs[i]))
  }

  /** The offer of the address generated from a hash. */
  function OfferOfHash(checksum: Checksum, p: Pattern, minBeauty: int): Hash20 -> Option<int>
  {
    (h: Hash20) => Offer(CreateAddressFromHash(h, checksum), p, minBeauty)
  }

  /** The offers of the addresses generated from `hashes`, in order. */
  function Offers(hashes: seq<Hash20>, checksum: Checksum, p: Pattern, minBeauty: int): (os: seq<Option<int>>)
    ensures |os| == |hashes|
  {
    MapSeq(hashes, OfferOfHash(checksum, p, minBeauty))
  }

  /** An offer the worker can record: the best score starts at -1 and only a
      strictly greater score replaces it. */
  predicate Recordable(o: Option<int>)
  {
    o.Some? && o.value > -1
  }

  /** Position `i` holds the first of the highest recordable offers among the first `n`. */
  predicate EarliestBest(os: seq<Option<int>>, i: nat, n: nat)
    requires n <= |os|
  {
    && i < n && Recordable(os[i])
    && (forall j :: 0 <= j < n && Recordable(os[j]) ==> os[j].value <= os[i].value)
    && (forall j :: 0 <= j < i && Recordable(os[j]) ==> os[j].value < os[i].value)
  }

  predicate NoneRecordable(os: seq<Option<int>>, n: nat)
    requires n <= |os|
  {
    forall j :: 0 <= j < n ==> !Recordable(os[j])
  }

  /** There is at most one earliest best position. */
  lemma EarliestBestUnique(os: seq<Option<int>>, i: nat, k: nat, n: nat)
    requires n <= |os| && EarliestBest(os, i, n) && EarliestBest(os, k, n)
    ensures i == k
  {
  }

  /** The position and score the worker's loop ends up holding, offer by
      offer: a recordable offer replaces the one held when there is none or
      when it is strictly higher. */
  function BestOf(os: seq<Option<int>>): (b: Option<(nat, int)>)
    ensures b.Some? ==> b.value.0 < |os| && os[b.value.0] == Some(b.value.1) && Recordable(os[b.value.0])
    decreases |os|
  {
    if |os| == 0 then None
    else
      var held := BestOf(os[..|os| - 1]);
      var o := os[|os| - 1];
      if Recordable(o) && (held.None? || o.value > held.value.1) then Some((|os| - 1, o.value))
      else held
  }

  lemma BestOfSnoc(os: seq<Option<int>>, o: Option<int>)
    ensures BestOf(os + [o]) == if Recordable(o) && (BestOf(os).None? || o.value > BestOf(os).value.1)
                                then Some((|os|, o.value)) else BestOf(os)
  {
    assert (os + [o])[..|os|] == os;
  }

  /** The loop's choice is the earliest highest recordable offer, and it
      holds nothing exactly when no offer is recordable. */
  lemma {:induction false} BestOfIsEarliestBest(os: seq<Option<int>>)
    ensures BestOf(os).None? ==> NoneRecordable(os, |os|)
    ensures BestOf(os).Some? ==> EarliestBest(os, BestOf(os).value.0, |os|)
    decreases |os|
  {
    if |os| > 0 {
      var init := os[..|os| - 1];
      var n := |os| - 1;
      BestOfIsEarliestBest(init);
      assert forall j :: 0 <= j < n ==> init[j] == os[j];
      var held := BestOf(init);
      if held.None? {
        assert NoneRecordable(os, n);
      } else {
        assert EarliestBest(os, held.value.0, n);
      }
    }
  }

  /** The result the worker records for the address found at attempt number `attempts`. */
  function ResultFor(address: string, p: Pattern, attempts: nat): (r: MiningResult)
    ensures r.address == address && r.attempts == attempts
    ensures r.beautyScore == CalculateBeautyScore(address)
    ensures r.onesCount == multiset(address)['1']
    ensures r.patternMatched == CheckPatternMatch(address, p).1
  {
    MiningResult(address, CalculateBeautyScore(address), Count(address, '1'), CheckPatternMatch(address, p).1, attempts)
  }

  function ResultOfHash(checksum: Checksum, p: Pattern): (Hash20, nat) -> MiningResult
  {
    (h: Hash20, attempts: nat) => ResultFor(CreateAddressFromHash(h, checksum), p, attempts)
  }

  /** The best-so-far loop of mine_worker over the generated inputs `xs`:
      `offer` says what each input offers (its score when it qualifies) and
      `record` builds the result kept for the input at a 1-based attempt
      number. A recordable offer strictly above the best score so far, which
      starts at -1, replaces the kept result. */
  method KeepBest<X, R>(xs: seq<X>, offer: X -> Option<int>, record: (X, nat) -> R) returns (best: Option<R>)
    ensures best.None? <==> BestOf(MapSeq(xs, offer)).None?
    ensures best.Some? ==> && BestOf(MapSeq(xs, offer)).value.0 < |xs|
                           && best.value == record(xs[BestOf(MapSeq(xs, offer)).value.0], BestOf(MapSeq(xs, offer)).value.0 + 1)
  {
    ghost var os := MapSeq(xs, offer);
    ghost var held: nat := 0;
    best := None;
    var bestScore := -1;
    var attempt := 0;
    while attempt < |xs|
      invariant 0 <= attempt <= |xs|
      invariant best.None? ==> bestScore == -1 && BestOf(os[..attempt]).None?
      invariant best.Some? ==> && BestOf(os[..attempt]) == Some((held, bestScore))
                               && held < |xs| && best.value == record(xs[held], held + 1)
    {
      var o := offer(xs[attempt]);
      assert os[..attempt + 1] == os[..attempt] + [o];
      BestOfSnoc(os[..attempt], o);
      if o.Some? {
        var score := o.value;
        if score > bestScore {
          bestScore := score;
          held := attempt;
          best := Some(record(xs[attempt], attempt + 1));
        }
      }
      attempt := attempt + 1;
    }
    assert os[..attempt] == os;
  }

  /** mine_worker over the hashes the random generator produced: the result
      for the earliest address with the highest recordable score, with the
      attempt number at which it was found, or None when no address qualifies. */
  method MineWorker(p: Pattern, minBeauty: int, hashes: seq<Hash20>, checksum: Checksum)
    returns (best: Option<MiningResult>)
    ensures best.None? ==> NoneRecordable(Offers(hashes, checksum, p, minBeauty), |hashes|)
    ensures best.Some? ==>
              && 1 <= best.value.attempts <= |hashes|
              && EarliestBest(Offers(hashes, checksum, p, minBeauty), best.value.attempts - 1, |hashes|)
              && best.value == ResultFor(CreateAddressFromHash(hashes[best.value.attempts - 1], checksum), p, best.value.attempts)
  {
    best := KeepBest(hashes, OfferOfHash(checksum, p, minBeauty), ResultOfHash(checksum, p));
    BestOfIsEarliestBest(Offers(hashes, checksum, p, minBeauty));
  }
}

=== FILE: radix.dfy ===
/** Big-endian positional numerals over an arbitrary base: the arithmetic
    shared by the base-58 text encoding and the base-256 byte encoding. */
module Radix {

  import opened Text

  function Pow(b: nat, e: nat): (r: nat)
    ensures b > 0 ==> r > 0
  {
    if e == 0 then 1 else b * Pow(b, e - 1)
  }

  lemma {:induction false} PowAdd(b: nat, m: nat, n: nat)
    ensures Pow(b, m + n) == Pow(b, m) * Pow(b, n)
  {
    if m > 0 {
      PowAdd(b, m - 1, n);
      assert Pow(b, m + n) == b * Pow(b, m - 1 + n);
    }
  }

  /** A larger exponent gives a strictly larger power when the base is at least 2. */
  lemma {:induction false} PowStrictlyIncreasing(b: nat, m: nat, n: nat)
    requires b >= 2 && m < n
    ensures Pow(b, m) < Pow(b, n)
  {
    if n == m + 1 {
      assert Pow(b, n) == b * Pow(b, m);
    } else {
      PowStrictlyIncreasing(b, m, n - 1);
      assert Pow(b, n) == b * Pow(b, n - 1);
    }
  }

  /** Every digit is a valid digit of the base. */
  predicate AllBelow(ds: seq<nat>, base: nat)
  {
    forall i :: 0 <= i < |ds| ==> ds[i] < base
  }

  /** A numeral without redundant leading zero digits (the empty numeral denotes 0). */
  predicate Minimal(ds: seq<nat>)
  {
    |ds| == 0 || ds[0] != 0
  }

  /** The value of the big-endian numeral `ds`, most significant digit first. */
  function FromDigits(ds: seq<nat>, base: nat): nat
    decreases |ds|
  {
    if |ds| == 0 then 0 else FromDigits(ds[..|ds| - 1], base) * base + ds[|ds| - 1]
  }

  /** The minimal big-endian numeral of `n`: the repeated-divmod loop of the
      source, least significant digit produced first and then reversed. */
  function ToDigits(n: nat, base: nat): (ds: seq<nat>)
    requires base >= 2
    ensures AllBelow(ds, base) && Minimal(ds)
    ensures FromDigits(ds, base) == n
    ensures n == 0 <==> |ds| == 0
    decreases n
  {
    if n == 0 then []
    else
      var high := ToDigits(n / base, base);
      var ds := high + [n % base];
      assert ds[..|ds| - 1] == high;
      ds
  }

  function Zeros(k: nat): (z: seq<nat>)
    ensures |z| == k && forall i :: 0 <= i < k ==> z[i] == 0
  {
    Repeat(0, k)
  }

  /** Leading zero digits do not change a numeral's value. */
  lemma {:induction false} FromDigitsLeadingZeros(k: nat, ds: seq<nat>, base: nat)
    ensures FromDigits(Zeros(k) + ds, base) == FromDigits(ds, base)
    decreases |ds|
  {
    var s := Zeros(k) + ds;
    if |ds| == 0 {
      assert s == Zeros(k);
      AllZerosValue(k, base);
    } else {
      assert s[..|s| - 1] == Zeros(k) + ds[..|ds| - 1];
      FromDigitsLeadingZeros(k, ds[..|ds| - 1], base);
    }
  }

  lemma {:induction false} AllZerosValue(k: nat, base: nat)
    ensures FromDigits(Zeros(k), base) == 0
  {
    if k > 0 {
      assert Zeros(k)[..k - 1] == Zeros(k - 1);
      AllZerosValue(k - 1, base);
    }
  }

  /** The leading digit contributes its weight `base^(|ds|)`. */
  lemma {:induction false} FromDigitsCons(d: nat, ds: seq<nat>, base: nat)
    ensures FromDigits([d] + ds, base) == d * Pow(base, |ds|) + FromDigits(ds, base)
    decreases |ds|
  {
    var s := [d] + ds;
    if |ds| > 0 {
      var init := ds[..|ds| - 1];
      var x := ds[|ds| - 1];
      assert s[..|s| - 1] == [d] + init;
      FromDigitsCons(d, init, base);
      var p := Pow(base, |init|);
      var f := FromDigits(init, base);
      assert FromDigits(s, base) == (d * p + f) * base + x;
      assert FromDigits(ds, base) == f * base + x;
      assert Pow(base, |ds|) == base * p;
      ShiftDistributes(d, p, f, base, x);
    }
  }

  lemma ShiftDistributes(d: nat, p: nat, f: nat, base: nat, x: nat)
    ensures (d * p + f) * base + x == d * (base * p) + (f * base + x)
  {
  }

  /** A numeral of `k` digits denotes a value below `base^k`. */
  lemma {:induction false} FromDigitsUpper(ds: seq<nat>, base: nat)
    requires base >= 2 && AllBelow(ds, base)
    ensures FromDigits(ds, base) < Pow(base, |ds|)
    decreases |ds|
  {
    if |ds| > 0 {
      var init := ds[..|ds| - 1];
      FromDigitsUpper(init, base);
      var v := FromDigits(init, base);
      assert FromDigits(ds, base) == v * base + ds[|ds| - 1];
      assert Pow(base, |ds|) == base * Pow(base, |init|);
      DigitAppendBound(v, Pow(base, |init|), base, ds[|ds| - 1]);
    }
  }

  lemma DigitAppendBound(v: nat, p: nat, base: nat, x: nat)
    requires v < p && x < base
    ensures v * base + x < base * p
  {
    assert v * base + x < (v + 1) * base;
    assert (v + 1) * base <= p * base;
  }

  /** A minimal non-empty numeral of `k` digits denotes at least `base^(k-1)`. */
  lemma FromDigitsLower(ds: seq<nat>, base: nat)
    requires |ds| > 0 && ds[0] != 0
    ensures FromDigits(ds, base) >= Pow(base, |ds| - 1)
  {
    assert ds == [ds[0]] + ds[1..];
    FromDigitsCons(ds[0], ds[1..], base);
    MulMonotone(1, ds[0], Pow(base, |ds| - 1));
  }

  /** Minimal numerals are the canonical ones: converting the value back
      yields the same digits. */
  lemma {:induction false} ToDigitsFromDigits(ds: seq<nat>, base: nat)
    requires base >= 2 && AllBelow(ds, base) && Minimal(ds)
    ensures ToDigits(FromDigits(ds, base), base) == ds
    decreases |ds|
  {
    if |ds| > 0 {
      var init := ds[..|ds| - 1];
      var d := ds[|ds| - 1];
      var v := FromDigits(ds, base);
      var q := FromDigits(init, base);
      assert v == q * base + d;
      DivModOfDigitAppend(q, d, base);
      if |ds| == 1 {
        assert q == 0 && v == d && d != 0;
        assert ToDigits(v, base) == ToDigits(0, base) + [d];
      } else {
        FromDigitsLower(init, base);
        assert q > 0;
        MulMonotone(1, q, base);
        assert v > 0;
        ToDigitsFromDigits(init, base);
        assert ToDigits(v, base) == ToDigits(q, base) + [d];
      }
      assert ds == init + [d];
    }
  }

  lemma DivModOfDigitAppend(q: nat, d: nat, base: nat)
    requires d < base
    ensures (q * base + d) / base == q && (q * base + d) % base == d
  {
    var v := q * base + d;
    var q' := v / base;
    var d' := v % base;
    assert v == q' * base + d' && d' < base;
    if q' < q {
      MulMonotone(q' + 1, q, base);
      assert false;
    }
    if q' > q {
      MulMonotone(q + 1, q', base);
      assert false;
    }
  }

  /** Two numerals of the same length with the same value are the same digits. */
  lemma {:induction false} FixedWidthUnique(a: seq<nat>, b: seq<nat>, base: nat)
    requires base >= 2 && |a| == |b| && AllBelow(a, base) && AllBelow(b, base)
    requires FromDigits(a, base) == FromDigits(b, base)
    ensures a == b
    decreases |a|
  {
    if |a| > 0 {
      var n := |a| - 1;
      DivModOfDigitAppend(FromDigits(a[..n], base), a[n], base);
      DivModOfDigitAppend(FromDigits(b[..n], base), b[n], base);
      FixedWidthUnique(a[..n], b[..n], base);
      assert a == a[..n] + [a[n]];
      assert b == b[..n] + [b[n]];
    }
  }

  lemma MulMonotone(a: nat, b: nat, p: nat)
    requires a <= b
    ensures a * p <= b * p
  {
  }

  /** The number of digits of `n` is the `k` with `base^(k-1) <= n < base^k`,
      and the leading digit is `lead` when `n` lies in the `lead`-th block of
      `base^(k-1)` values. */
  lemma LengthAndLeadingDigit(n: nat, base: nat, k: nat, lead: nat)
    requires base >= 2 && k >= 1
    requires lead * Pow(base, k - 1) <= n < (lead + 1) * Pow(base, k - 1)
    requires 1 <= lead < base
    ensures |ToDigits(n, base)| == k && ToDigits(n, base)[0] == lead
  {
    var ds := ToDigits(n, base);
    var p := Pow(base, k - 1);
    MulMonotone(1, lead, p);
    MulMonotone(lead + 1, base, p);
    assert Pow(base, k) == base * p;
    assert p <= n < Pow(base, k);
    FromDigitsUpper(ds, base);
    if |ds| < k {
      if |ds| < k - 1 { PowStrictlyIncreasing(base, |ds|, k - 1); }
      assert false;
    }
    if |ds| > k {
      FromDigitsLower(ds, base);
      PowStrictlyIncreasing(base, k, |ds| - 1);
      assert false;
    }
    LeadingDigitBlock(ds, base);
    var d := ds[0];
    if d < lead {
      MulMonotone(d + 1, lead, p);
      assert false;
    }
    if d > lead {
      MulMonotone(lead + 1, d, p);
      assert false;
    }
  }

  /** A non-empty numeral's value lies in the block selected by its leading digit. */
  lemma LeadingDigitBlock(ds: seq<nat>, base: nat)
    requires base >= 2 && AllBelow(ds, base) && |ds| > 0
    ensures ds[0] * Pow(base, |ds| - 1) <= FromDigits(ds, base) < (ds[0] + 1) * Pow(base, |ds| - 1)
  {
    assert ds == [ds[0]] + ds[1..];
    FromDigitsCons(ds[0], ds[1..], base);
    FromDigitsUpper(ds[1..], base);
  }

  predicate IsDecimalDigit(c: char)
  {
    '0' <= c <= '9'
  }

  function DigitValues(s: string): (ds: seq<nat>)
    requires forall i :: 0 <= i < |s| ==> IsDecimalDigit(s[i])
    ensures |ds| == |s| && AllBelow(ds, 10)
  {
    seq(|s|, i requires 0 <= i < |s| => if IsDecimalDigit(s[i]) then (s[i] as int - '0' as int) as nat else 0)
  }

  /** The value of a string of decimal digits. */
  function DecimalValue(s: string): nat
    requires forall i :: 0 <= i < |s| ==> IsDecimalDigit(s[i])
  {
    FromDigits(DigitValues(s), 10)
  }

  /** The decimal rendering of a non-negative integer, as Python's `str(n)`
      and JavaScript's `${n}` produce it: no leading zeros, "0" for zero. */
  function DecimalString(n: nat): (s: string)
    ensures |s| >= 1 && forall i :: 0 <= i < |s| ==> IsDecimalDigit(s[i])
    ensures |s| > 1 ==> s[0] != '0'
    ensures DecimalValue(s) == n
  {
    var ds := if n == 0 then [0] else ToDigits(n, 10);
    assert AllBelow(ds, 10) && FromDigits(ds, 10) == n;
    var s := seq(|ds|, i requires 0 <= i < |ds| => ('0' as int + ds[i]) as char);
    assert DigitValues(s) == ds;
    s
  }
}

=== FILE: text.dfy ===
/** Sequence and string helpers mirroring the Python `str` operations the
    tools rely on (`count`, `startswith`, `endswith`, `in`, slicing). */
module Text {

  function Repeat<T>(x: T, n: nat): (r: seq<T>)
    ensures |r| == n && forall i :: 0 <= i < n ==> r[i] == x
  {
    seq(n, _ => x)
  }

  /** The length of the longest prefix of `s` made only of `x`. */
  function CountLeading<T(==)>(s: seq<T>, x: T): (n: nat)
    ensures n <= |s|
    ensures forall i :: 0 <= i < n ==> s[i] == x
    ensures n < |s| ==> s[n] != x
  {
    if |s| == 0 || s[0] != x then 0 else 1 + CountLeading(s[1..], x)
  }

  /** A run of `k` copies of `x` followed by something that does not start
      with `x` has exactly `k` leading copies. */
  lemma {:induction false} CountLeadingOfRun<T>(x: T, k: nat, ys: seq<T>)
    requires |ys| == 0 || ys[0] != x
    ensures CountLeading(Repeat(x, k) + ys, x) == k
  {
    if k > 0 {
      assert (Repeat(x, k) + ys)[1..] == Repeat(x, k - 1) + ys;
      CountLeadingOfRun(x, k - 1, ys);
    }
  }

  /** Every sequence is its leading run of `x` followed by the rest. */
  lemma SplitLeading<T>(s: seq<T>, x: T)
    ensures s == Repeat(x, CountLeading(s, x)) + s[CountLeading(s, x)..]
  {
  }

  /** Python's `s.count(x)` for a single element `x`. */
  function Count<T(==)>(s: seq<T>, x: T): (n: nat)
    ensures n == multiset(s)[x]
  {
    if |s| == 0 then 0
    else
      assert s == [s[0]] + s[1..];
      (if s[0] == x then 1 else 0) + Count(s[1..], x)
  }

  predicate StartsWith<T(==)>(s: seq<T>, p: seq<T>)
  {
    |p| <= |s| && s[..|p|] == p
  }

  predicate EndsWith<T(==)>(s: seq<T>, p: seq<T>)
  {
    |p| <= |s| && s[|s| - |p|..] == p
  }

  /** `t` occurs in `s` starting at position `i`. */
  predicate OccursAt<T(==)>(s: seq<T>, t: seq<T>, i: int)
  {
    0 <= i <= |s| - |t| && s[i..i + |t|] == t
  }

  /** Python's substring test `t in s`. */
  predicate Contains<T(==)>(s: seq<T>, t: seq<T>)
  {
    exists i | 0 <= i <= |s| - |t| :: OccursAt(s, t, i)
  }

  function Reverse<T>(s: seq<T>): (r: seq<T>)
    ensures |r| == |s|
    ensures forall i :: 0 <= i < |s| ==> r[i] == s[|s| - 1 - i]
  {
    if |s| == 0 then [] else Reverse(s[1..]) + [s[0]]
  }

  lemma ReverseSnoc<T>(s: seq<T>, x: T)
    ensures Reverse(s + [x]) == [x] + Reverse(s)
  {
  }

  lemma AppendAssociates<T>(a: seq<T>, b: seq<T>, c: seq<T>)
    ensures a + (b + c) == (a + b) + c
  {
  }

  /** Python's `s[-k:]`: the last `k` elements, or all of `s` when shorter. */
  function LastN<T>(s: seq<T>, k: nat): (r: seq<T>)
    ensures |r| == if |s| < k then |s| else k
    ensures EndsWith(s, r)
  {
    if |s| < k then s else s[|s| - k..]
  }
}

=== FILE: verify_vanity.dfy ===
/** verify_vanity.py: a second Base58 decoder that goes through the value's
    hexadecimal spelling, and a verifier that reports its decision as an
    outcome. */
module VerifyVanity {

  import opened Wrappers
  import opened Text
  import opened Radix
  import opened Base58
  import opened Address

  /** The vanity prefix of the canonical burn address. */
  const CanonicalPrefix: string := "DKabosuForeverRestinPeace"
  /** The run of '1's the report calls the void marker. */
  const VoidMarker: string := "111"

  /** `hex(num)[2:]` as hexadecimal digits: "0" for zero, otherwise the
      minimal base-16 numeral. */
  function HexDigits(n: nat): (hs: seq<nat>)
    ensures |hs| >= 1 && AllBelow(hs, 16) && FromDigits(hs, 16) == n
    ensures n > 0 ==> hs[0] != 0
  {
    if n == 0 then [0] else ToDigits(n, 16)
  }

  /** `binascii.unhexlify` of an even-length digit string: each pair of
      hexadecimal digits becomes one byte. */
  function Unhexlify(hs: seq<nat>): (b: seq<byte>)
    requires |hs| % 2 == 0 && AllBelow(hs, 16)
    ensures |b| == |hs| / 2
    ensures forall i :: 0 <= i < |b| ==> b[i] == hs[2 * i] * 16 + hs[2 * i + 1]
    decreases |hs|
  {
    if |hs| == 0 then []
    else
      var n := |hs|;
      Unhexlify(hs[..n - 2]) + [hs[n - 2] * 16 + hs[n - 1]]
  }

  /** Pairing hexadecimal digits into bytes preserves the value. */
  lemma {:induction false} UnhexlifyValue(hs: seq<nat>)
    requires |hs| % 2 == 0 && AllBelow(hs, 16)
    ensures BytesValue(Unhexlify(hs)) == FromDigits(hs, 16)
    decreases |hs|
  {
    if |hs| > 0 {
      var n := |hs|;
      var init := hs[..n - 2];
      var hi := hs[n - 2];
      var lo := hs[n - 1];
      UnhexlifyValue(init);
      var f := FromDigits(init, 16);
      UnhexlifyLastPair(hs);
      BytesValueSnoc(Unhexlify(init), hi * 16 + lo);
      FromDigitsLastPair(hs);
      PairShift(f, hi, lo);
    }
  }

  lemma UnhexlifyLastPair(hs: seq<nat>)
    requires |hs| % 2 == 0 && AllBelow(hs, 16) && |hs| > 0
    ensures Unhexlify(hs) == Unhexlify(hs[..|hs| - 2]) + [hs[|hs| - 2] * 16 + hs[|hs| - 1]]
  {
  }

  lemma BytesValueSnoc(b: seq<byte>, x: byte)
    ensures BytesValue(b + [x]) == BytesValue(b) * 256 + x
  {
    assert (b + [x])[..|b|] == b;
  }

  lemma FromDigitsLastPair(hs: seq<nat>)
    requires |hs| >= 2
    ensures FromDigits(hs, 16) == (FromDigits(hs[..|hs| - 2], 16) * 16 + hs[|hs| - 2]) * 16 + hs[|hs| - 1]
  {
    assert hs[..|hs| - 1][..|hs| - 2] == hs[..|hs| - 2];
  }

  lemma PairShift(f: nat, hi: nat, lo: nat)
    ensures (f * 16 + hi) * 16 + lo == f * 256 + (hi * 16 + lo)
  {
  }

  /** The bytes verify_vanity.py's decoder produces from a value: a single
      zero byte for 0, otherwise the minimal big-endian bytes. */
  function NumericBytes(n: nat): (b: seq<byte>)
    ensures |b| >= 1 && BytesValue(b) == n
  {
    if n == 0 then [0] else MinimalBytes(n)
  }

  /** The hexadecimal digits padded with one '0' to an even count. */
  function EvenPad(hs: seq<nat>): (p: seq<nat>)
    requires AllBelow(hs, 16)
    ensures |p| % 2 == 0 && AllBelow(p, 16) && FromDigits(p, 16) == FromDigits(hs, 16)
    ensures |hs| % 2 != 0 ==> p == [0] + hs
    ensures |hs| % 2 == 0 ==> p == hs
  {
    if |hs| % 2 != 0 then
      assert [0] + hs == Zeros(1) + hs;
      FromDigitsLeadingZeros(1, hs, 16);
      [0] + hs
    else hs
  }

  /** `binascii.unhexlify` of the even-padded `hex(n)[2:]`. */
  function HexBytes(n: nat): (b: seq<byte>)
    ensures |b| >= 1 && BytesValue(b) == n
  {
    var padded := EvenPad(HexDigits(n));
    UnhexlifyValue(padded);
    Unhexlify(padded)
  }

  /** Going through the hexadecimal spelling yields the minimal big-endian
      bytes of the value, and a single zero byte for 0. */
  lemma HexBytesAreNumericBytes(n: nat)
    ensures HexBytes(n) == NumericBytes(n)
  {
    var even := EvenPad(HexDigits(n));
    var bytes := Unhexlify(even);
    UnhexlifyValue(even);
    if n == 0 {
      assert even == [0, 0];
    } else {
      assert bytes[0] == even[0] * 16 + even[1];
      assert bytes[0] != 0;
      ToDigitsFromDigits(bytes, 256);
    }
  }

  /** The message of the ValueError `str.index` raises for a missing
      character; it does not name the character. */
  const SubstringNotFound: string := "substring not found"

  /** base58_decode (verify_vanity.py): the running value
      `num = num * 58 + ALPHABET.index(char)`, which fails at the first
      character outside the alphabet with a message naming no character,
      spelled in hexadecimal, padded to an even number of digits and
      unhexlified. */
  function NumericDecode(s: string): (r: Result<seq<byte>, string>)
    ensures r.Err? <==> !IsBase58(s)
    ensures r.Err? ==> r.error == SubstringNotFound
    ensures r.Ok? ==> r.value == NumericBytes(ValueOf(s))
  {
    match FirstInvalid(s)
    case Some(_) => Err(SubstringNotFound)
    case None =>
      var num := ValueOf(s);
      HexBytesAreNumericBytes(num);
      Ok(HexBytes(num))
  }

  /** Leading '1's add nothing to this decoder's output. */
  lemma LeadingOnesIgnored(s: string)
    ensures NumericDecode("1" + s) == NumericDecode(s)
  {
    var t := "1" + s;
    assert t[1..] == s;
    assert Digits(t) == [0] + Digits(s);
    FromDigitsCons(0, Digits(s), 58);
    assert IsBase58(t) <==> IsBase58(s) by {
      assert forall i :: 0 <= i < |s| ==> t[i + 1] == s[i];
    }
    if !IsBase58(s) {
      assert FirstInvalid(t) == FirstInvalid(s);
    }
  }

  /** A value fits in `k` bytes exactly when it is below 256^k. */
  lemma NumericBytesFit(n: nat, k: nat)
    requires 1 <= k
    ensures |NumericBytes(n)| <= k <==> n < Pow(256, k)
  {
    var m := NumericBytes(n);
    if |m| > k {
      FromDigitsLower(m, 256);
      if |m| - 1 > k {
        PowStrictlyIncreasing(256, k, |m| - 1);
      }
    } else {
      FromDigitsUpper(m, 256);
      if |m| < k {
        PowStrictlyIncreasing(256, |m|, k);
      }
    }
  }

  /** The 25-byte big-endian encoding of a value that fits in 25 bytes. */
  function BigEndian25(n: nat): (b: seq<byte>)
    requires |NumericBytes(n)| <= AddressLength
    ensures |b| == AddressLength && BytesValue(b) == n
  {
    LeftPad(NumericBytes(n), AddressLength)
  }

  /** The vanity checks made once the checksum is valid: the canonical prefix,
      and the void marker anywhere in the address. */
  function VanityMarks(address: string): (m: (bool, bool))
    ensures m.0 <==> |address| >= |CanonicalPrefix| && address[..|CanonicalPrefix|] == CanonicalPrefix
    ensures m.1 <==> exists i :: OccursAt(address, VoidMarker, i)
  {
    (StartsWith(address, CanonicalPrefix), Contains(address, VoidMarker))
  }

  /** The outcome of verify_address (verify_vanity.py), in place of its printed report. */
  datatype Report =
    | DecodeError(message: string)
    | InvalidLength(length: nat)
    | ChecksumInvalid(expected: Digest4, actual: seq<byte>)
    | ChecksumValid(canonicalPrefix: bool, voidMarker: bool)

  /** The steps of verify_address after decoding: a decoding longer than 25
      bytes is an invalid length; otherwise the left-padded 25 bytes are
      checked, and only a valid checksum leads to the vanity checks. */
  function CheckDecoded(address: string, raw: seq<byte>, checksum: Checksum): (r: Report)
    ensures !r.DecodeError?
    ensures r.InvalidLength? <==> |raw| > AddressLength
    ensures r.ChecksumValid? <==> |raw| <= AddressLength && ChecksumHolds(LeftPad(raw, AddressLength), checksum)
    ensures r.ChecksumInvalid? ==> && |raw| <= AddressLength
                                   && r.actual == LeftPad(raw, AddressLength)[PayloadLength..]
                                   && r.expected == checksum(LeftPad(raw, AddressLength)[..PayloadLength])
                                   && r.actual != r.expected
    ensures r.ChecksumValid? ==> (r.canonicalPrefix, r.voidMarker) == VanityMarks(address)
  {
    if |raw| > AddressLength then InvalidLength(|raw|)
    else
      var padded := LeftPad(raw, AddressLength);
      var payload := padded[..PayloadLength];
      var given := padded[PayloadLength..];
      var calculated := checksum(payload);
      if given == calculated then
        var marks := VanityMarks(address);
        ChecksumValid(marks.0, marks.1)
      else
        ChecksumInvalid(calculated, given)
  }

  /** verify_address (verify_vanity.py): a decoding failure, a decoding longer
      than 25 bytes, a checksum mismatch (with both checksums), or a valid
      checksum followed by the two vanity checks. */
  function VerifyVanity(address: string, checksum: Checksum): (r: Report)
    ensures r.DecodeError? <==> !IsBase58(address)
    ensures r.DecodeError? ==> r.message == SubstringNotFound
    ensures r.InvalidLength? <==> IsBase58(address) && |NumericBytes(ValueOf(address))| > AddressLength
    ensures r.ChecksumValid? <==> && IsBase58(address) && |NumericBytes(ValueOf(address))| <= AddressLength
                                  && ChecksumHolds(BigEndian25(ValueOf(address)), checksum)
    ensures r.ChecksumInvalid? ==> && IsBase58(address) && |NumericBytes(ValueOf(address))| <= AddressLength
                                   && r.actual == BigEndian25(ValueOf(address))[PayloadLength..]
                                   && r.expected == checksum(BigEndian25(ValueOf(address))[..PayloadLength])
                                   && r.actual != r.expected
    ensures r.ChecksumValid? ==> (r.canonicalPrefix, r.voidMarker) == VanityMarks(address)
  {
    match NumericDecode(address)
    case Err(_) => DecodeError(SubstringNotFound)
    case Ok(raw) => CheckDecoded(address, raw, checksum)
  }

  /** The two verifiers agree on every address whose full decoding, leading
      zero bytes included, fits in 25 bytes. */
  lemma AgreesWithVerifyAddress(address: string, checksum: Checksum)
    requires Decode(address).Ok? && |Decode(address).value| <= AddressLength
    ensures VerifyVanity(address, checksum).ChecksumValid? <==> VerifyAddress(address, checksum)
  {
    PaddedDecodingIsBigEndian25(Decode(address).value, ValueOf(address));
  }

  /** Zero-padding any decoding of the value to 25 bytes gives the same bytes
      as padding its minimal spelling. */
  lemma PaddedDecodingIsBigEndian25(d: seq<byte>, v: nat)
    requires |d| <= AddressLength && BytesValue(d) == v
    ensures |NumericBytes(v)| <= AddressLength
    ensures LeftPad(d, AddressLength) == BigEndian25(v)
  {
    FromDigitsUpper(d, 256);
    if |d| > 0 {
      NumericBytesFit(v, |d|);
    }
    var p := LeftPad(d, AddressLength);
    FixedWidthUnique(p, BigEndian25(v), 256);
  }
}

=== FILE: wrappers.dfy ===
/** Failure-carrying datatypes used for the source's `None` returns and
    raised exceptions. */
module Wrappers {

  /** Python's `Optional[T]`: `None` or a present value. */
  datatype Option<+T> = None | Some(value: T)

  /** A computation that either yields a value or raises an error. */
  datatype Result<+T, +E> = Ok(value: T) | Err(error: E)
}
